=== FILE: README.md ===
# Kwikpic face clustering: a Dafny model

Kwikpic sorts a folder of photos by the people in them. The batch path is
`FaceRecognizer.scan_folder`. It scans the image files of a folder and keeps
every detected face that has an encoding. It then clusters the encodings
with DBSCAN (`min_samples=1`) and turns each cluster into a `Person` record
(id, name, encodings, photo paths, face indices). The main window lists the
people, most photos first, and can merge the selected people into the first
one. Next to that, a photo service watches a folder. It assigns each new
photo to the first cluster that has a close enough member, or opens a new
cluster. It copies the photo under a name built from the cluster's name, and
it drops deleted photos (and clusters that become empty). A folder monitor
filters file-system events by extension and forwards them to callbacks.

The model is split into these modules:

- `Util`, `Strings`, `Dicts`: the Python built-ins the code relies on.
  - `list.remove`, `str.lower`, `str.endswith`, decimal formatting.
  - `pathlib.Path.suffix` and `os.path.join`, in their Windows flavour.
  - A `dict` that remembers insertion order.
- `Recognizer` (`src/core/face_recognizer.py`).
  - The face detector is a function parameter.
  - The distance test is an abstract relation `close`.
  - DBSCAN is a parameter that must return a labelling whose classes are
    the connected components of `close`.
  - `FaceRecognizer` is a class whose `ScanFolder` method is proved against
    the functions `ImageFiles`, `ScannedFaces` and `Registry`.
    `ScanFolderAsWritten` adds the failure of a second scan described under
    "## Findings".
  - The lemmas prove that the registry partitions the face indices and
    that each person is a connected component.
- `MainWindow` (`src/ui/main_window.py`).
  - The photo-count sort is a stable insertion sort. It is proved sorted,
    a permutation and stable.
  - `merge_selected` is a method whose loop is proved against the
    specification function `MergeAll`. Lemmas about `MergeAll` state what a
    merge does to the main person, to the merged-away people and to
    everyone else, and that the registry invariant survives.
- `Watchdog`: the library's event record, and an observer reduced to the
  calls it receives.
- `PhotoService` (`src/core/photo_service.py`).
  - `PhotoService` and `PhotoEventHandler` are classes.
  - Their methods are proved against the functions `NewPhoto` and
    `Deleted`. The invariant `Consistent` states that the two dicts share
    their keys, that no cluster is empty and that every id came from the
    counter.
  - The face detector and the comparison of a face with a cluster member
    are function parameters. A comparison that raises is the probe `Fails`.
- `FolderMonitor` (`src/core/folder_monitor.py`).
  - `PhotoFolderHandler` records the callbacks it makes as a trace of
    `Created`/`Deleted` calls.
  - `FolderMonitor` owns the observer, the handler and the running flag.

The model follows the code. In two places the code defeats its own evident
purpose; there the model has both the code as written and a corrected
version, and the rest of the model uses the corrected one (see
"## Findings"): cluster ids (the last point below) and a second
`scan_folder` on the same recognizer, which as written raises
`AttributeError` because the labels stored at line 48 are an array without
`clear` (`ScanFolderAsWritten`; `ScanFolder` keeps the labels as a list).

- `merge_selected` silently skips a selected id that is no longer in the
  registry. It raises (a `KeyError`, modelled as the outcome `MissingMain`)
  only when the first selected id is missing and some other selected id is
  present. It does not reject unknown ids before changing anything.
- A new photo matches a cluster when *any* member of the cluster is close.
  The first face of the cluster plays no special role.
- Deleting a photo removes one occurrence of its path from the first cluster
  holding it. No face indices are remapped, because the service keeps
  photo paths, not indices.
- The recognizer's `rename_person` ignores an unknown id instead of
  failing.
- An error while processing an incrementally added photo is caught and
  printed by the service itself. It is not surfaced to the caller.
- The exception: the id of a new cluster is `person_<number of clusters>`,
  which is not fresh after a deletion (see "## Findings"). The model
  allocates ids from a counter instead, so that a new cluster never takes
  the id of a live one. The two
  agree exactly while no cluster has been pruned; after any pruning the
  model's ids, and the output names built from them, differ from the
  code's (`CounterIdMatchesAsWritten`).

## Model

| member | source | states |
|---|---|---|
| Util.RemoveFirst | src/core/photo_service.py:97 | `list.remove` drops exactly one occurrence, the first: the length shrinks by one, the multiset loses one copy of the value, and the result is the list before the first occurrence followed by the list after it, order kept |
| Dicts.Put | src/core/photo_service.py:80-81 | assigning a dict key sets that entry only; an existing key keeps its place in the order, a new key goes to the end |
| Dicts.Delete | src/core/photo_service.py:99-100 | `del d[k]` removes the key from the map and from the order and keeps the rest |
| Strings.NatStr | src/core/photo_service.py:87 | decimal formatting yields at least one digit, digits only, and one digit exactly for numbers below ten |
| Strings.NatStrInjective | src/core/photo_service.py:87 | different numbers print differently |
| Strings.Suffix | src/core/photo_service.py:87 | `Path.suffix` is empty or a dot and at least one more character, is a tail of the path, and holds no further dot or separator; a non-empty suffix is shorter than the file name, so a name that is only a suffix (`.jpg`) has none; a name `<stem>.<ext>` with a non-empty stem and a dot-free, non-empty ext has the suffix `.<ext>` |
| Strings.JoinPath | src/core/face_recognizer.py:32 | `os.path.join(folder, name)` for a plain file name: a separator is inserted unless the folder is empty, already ends with one, or is a bare drive such as `C:` |
| Strings.JoinPathParts | src/core/face_recognizer.py:32 | the joined path starts with the folder, ends with the name, and has exactly one separator between the name and a non-empty folder that is not a bare drive; after a bare drive the name follows directly |
| Dicts.Values | src/core/face_recognizer.py:66 | `list(d.values())` has one value per key, position by position in the dict's key order |
| Recognizer.ImageFiles | src/core/face_recognizer.py:32-33 | every listed name whose lower-cased form ends in `.png`, `.jpg` or `.jpeg` is scanned, joined to the folder |
| Recognizer.ImageFilesFromNames | src/core/face_recognizer.py:32-33 | conversely, every scanned file is a listed name that passes that filter, joined to the folder |
| Recognizer.KeptFaces | src/core/face_recognizer.py:37-40 | a face of one image is kept iff it has an encoding, paired with that image's path |
| Recognizer.ScannedFaces | src/core/face_recognizer.py:35-40 | `face_data` holds exactly the encoded faces of the scanned images, each with the image it came from |
| Recognizer.EncodingsOf | src/core/face_recognizer.py:38-40 | the encodings list has the length of `face_data` and position k is the encoding of face k |
| Recognizer.ProgressValue | src/core/face_recognizer.py:41-42 | every progress value lies in 0..100 and the value after the last image is 100 |
| Recognizer.ProgressMonotone | src/core/face_recognizer.py:41-42 | progress values never decrease from one image to the next |
| Recognizer.CloseFacesShareLabel | src/core/face_recognizer.py:47 | with `min_samples=1` two faces within eps of each other receive the same label |
| Recognizer.Members | src/core/face_recognizer.py:50-52 | a cluster's list holds exactly the positions carrying its label, in increasing order |
| Recognizer.FirstAppearance | src/core/face_recognizer.py:50-52 | the clusters appear once each, and exactly the labels that occur |
| Recognizer.Group | src/core/face_recognizer.py:50-52 | the grouping dict is well formed and has a key exactly for each label that occurs |
| Recognizer.GroupIsPartition | src/core/face_recognizer.py:50-52 | grouping yields one non-empty increasing list per label, and every index lies in the list of its own label and no other |
| Recognizer.GroupStep | src/core/face_recognizer.py:51-52 | one `setdefault(label, []).append(idx)` turns the grouping of a prefix into the grouping of the longer prefix |
| Recognizer.GroupIsWellFormed | src/core/face_recognizer.py:50-57 | the grouped clusters have non-negative keys and in-range indices, so a `Person` can be built from each |
| Recognizer.NewPerson | src/core/face_recognizer.py:55-63 | the person built for a cluster has the cluster's id, the name "Person <id>", the cluster's indices, exactly the image paths of those faces, and their encodings in index order |
| Recognizer.PeopleOf | src/core/face_recognizer.py:53-63 | one person per cluster, under the cluster's key and in the clusters' order, with the cluster's indices |
| Recognizer.Registry | src/core/face_recognizer.py:47-63 | the registry has a person exactly for each label that occurs, and face i is among the indices of the person of its label |
| Recognizer.RegistryIsPartition | src/core/face_recognizer.py:53-63 | the built registry keys each person by its label, names it "Person <label>", gives it only faces with that label, the paths of its faces and the encodings of its indices in order, and holds each face in exactly one person |
| Recognizer.PersonsAreComponents | src/core/face_recognizer.py:47-63 | face j is in the person holding face i iff i and j are connected through close encodings |
| Recognizer.CollectFaces | src/core/face_recognizer.py:34-42 | the loop builds `face_data` and `encodings` in lockstep and reports one progress value per image |
| Recognizer.KeepEncodedFaces | src/core/face_recognizer.py:37-40 | for one image, the faces with an encoding are appended to `face_data` with the image path, in detection order, and their encodings to `encodings`, keeping the two aligned |
| Recognizer.GroupLabels | src/core/face_recognizer.py:50-52 | the `setdefault` loop computes the grouping of the labels |
| Recognizer.BuildPeople | src/core/face_recognizer.py:53-63 | the loop builds one `Person` per cluster, in cluster order |
| Recognizer.MakePerson | src/core/face_recognizer.py:55-62 | the person built for one cluster has the cluster's id, the name `Person <id>`, the paths of its faces' images and its faces' encodings in member order |
| Recognizer.FaceRecognizer.constructor | src/core/face_recognizer.py:17-22 | a new recognizer has the given threshold and an empty registry, face list and label list |
| Recognizer.FaceRecognizer.ScanFolder | src/core/face_recognizer.py:24-63 | with the labels kept as a list: earlier state is discarded; without encoded faces the registry stays empty; otherwise the labels are DBSCAN's and the registry is the grouping of them; the registry invariant holds |
| Recognizer.FaceRecognizer.ScanFolderAsWritten | src/core/face_recognizer.py:24-63 | as written: after lines 28-29 empty `face_data` and `people`, the scan fails at line 30 exactly when the labels are still an earlier scan's array, keeping those labels; otherwise it scans as `ScanFolder` does, and its labels are an array exactly when it found a face |
| Recognizer.RescanFailsAsWritten | src/core/face_recognizer.py:30 | as written, after a scan that found a face, the next scan of any folder fails and leaves the registry empty |
| Recognizer.RescanRebuilds | src/core/face_recognizer.py:28-63 | with the labels kept as a list, a second scan rebuilds the registry from the second folder alone: its faces, a component labelling, and one person per label |
| Recognizer.FaceRecognizer.GetAllPeople | src/core/face_recognizer.py:65-66 | every registered person once, in dict order, each under its own id |
| Recognizer.FaceRecognizer.GetPersonPhotos | src/core/face_recognizer.py:68-71 | the paths of the person's faces, or the empty set for an unknown id |
| Recognizer.FaceRecognizer.GetPersonFaceIndices | src/core/face_recognizer.py:73-76 | the person's face indices, or `[]` for an unknown id; every index returned is a registered face |
| Recognizer.FaceRecognizer.RenamePerson | src/core/face_recognizer.py:78-80 | only the name of an existing person changes; an unknown id changes nothing |
| MainWindow.SortByCount | src/ui/main_window.py:257 | the sorted list is a permutation of the people |
| MainWindow.SortByCountSorts | src/ui/main_window.py:257 | the displayed order is a permutation of the people with non-increasing photo counts |
| MainWindow.SortByCountIsStable | src/ui/main_window.py:257 | people with equal photo counts keep their relative order, as Python's stable `sorted(..., reverse=True)` does |
| MainWindow.SortByCountIds | src/ui/main_window.py:257 | sorting keeps the multiset of person ids |
| MainWindow.Cards | src/ui/main_window.py:256-261 | one unselected card per person, in the given order |
| MainWindow.SelectedIds | src/ui/main_window.py:267 | the selected ids are exactly the ids of the selected cards |
| MainWindow.SelectedIdsDistinct | src/ui/main_window.py:267 | cards of distinct people give distinct selected ids |
| MainWindow.SelectedIdsAppend | src/ui/main_window.py:267 | the selected ids of two runs of cards are those of the first run followed by those of the second, so the ids keep the cards' order |
| MainWindow.SelectedIdsFirst | src/ui/main_window.py:267-272 | the first selected id, which becomes the main person, belongs to the first ticked card: that card is ticked and no card before it is |
| MainWindow.MergeStep | src/ui/main_window.py:274-279 | one merge step keeps the dict well formed |
| MainWindow.MergeAll | src/ui/main_window.py:273-279 | the whole merge loop keeps the dict well formed |
| MainWindow.MergeStepEntries | src/ui/main_window.py:274-279 | one step with both people present puts the absorbed person under the main id and removes the other id |
| MainWindow.MergeKeys | src/ui/main_window.py:273-279 | after a merge the registry holds exactly the old ids that were not merged away |
| MainWindow.MergeKeepsUnselected | src/ui/main_window.py:273-279 | every person other than the main one is unchanged |
| MainWindow.MergeMainFaces | src/ui/main_window.py:272-278 | the main person's face indices are its old list followed by each present other's list in selection order; its id and name are kept |
| MainWindow.MergeMainEncodings | src/ui/main_window.py:276 | the main person's encodings are extended in the same order as its face indices |
| MainWindow.MergeMainPhotos | src/ui/main_window.py:277 | the main person's photo paths are the union of all merged persons' paths |
| MainWindow.Absorb | src/ui/main_window.py:276-278 | the three `extend`/`update` calls: the main person's encodings and indices are followed by the other's, and its paths gain the other's; id and name are kept |
| MainWindow.AbsorbConsistent | src/ui/main_window.py:276-278 | absorbing a person with disjoint faces keeps paths equal to the paths of the faces and encodings aligned with indices |
| MainWindow.MergeStepKeepsDisjoint | src/ui/main_window.py:278-279 | pairwise disjoint face-index lists stay pairwise disjoint after one step |
| MainWindow.MergeStepKeepsRegistry | src/ui/main_window.py:274-279 | one step keeps the registry invariant |
| MainWindow.MergeKeepsRegistry | src/ui/main_window.py:273-279 | a completed merge keeps the registry invariant, so each face stays in exactly one person |
| MainWindow.MergeWithoutMain | src/ui/main_window.py:272-279 | with the main id missing, the merge raises iff some other selected id is present, and otherwise changes nothing |
| MainWindow.MainWindow.constructor | src/ui/main_window.py:154-157 | a new window has a fresh, empty recognizer and no cards |
| MainWindow.MainWindow.UpdatePeopleGrid | src/ui/main_window.py:256-261 | the cards are rebuilt, unselected, from the people sorted by photo count |
| MainWindow.MainWindow.SetCardSelected | src/ui/main_window.py:146-147 | ticking a card's checkbox changes that card's selection only |
| MainWindow.MainWindow.MergeSelected | src/ui/main_window.py:266-281 | fewer than two selected changes nothing; a missing main id with another id present raises and changes nothing; otherwise the registry becomes the merge of the selected ids and the grid is rebuilt |
| PhotoService.HandlerIsImage | src/core/photo_service.py:22-23 | the handler's `_is_image`: the lower-cased path ends in one of the five image suffixes |
| PhotoService.ServiceIsImage | src/core/photo_service.py:116-117 | the service's `_is_image`: the lower-cased `Path.suffix` is one of the five image suffixes |
| PhotoService.ServiceIsImageByExtension | src/core/photo_service.py:116-117 | a file named `<stem>.<ext>` with a non-empty stem is an image for the service iff its lower-cased extension is `png`, `jpg`, `jpeg`, `bmp` or `gif` |
| PhotoService.HandlerIgnoresCase | src/core/photo_service.py:22-23 | the handler's image test does not depend on the case of the path |
| PhotoService.ServiceImageIsHandlerImage | src/core/photo_service.py:116-117 | every path the service's own `_is_image` accepts, the handler's `_is_image` accepts |
| PhotoService.HiddenNameIsHandlerImageOnly | src/core/photo_service.py:22-23 | the converse fails: a file named just `.jpg` passes the handler's test but not the service's |
| PhotoService.HiddenNameIsHandlerImage | src/core/photo_service.py:22-23 | the handler accepts a file named just `.jpg`: its lower-cased path ends in `.jpg` |
| PhotoService.HiddenNameIsNotServiceImage | src/core/photo_service.py:116-117 | the service rejects a file named just `.jpg`: its suffix is empty, and no image suffix is |
| PhotoService.HiddenNameHasNoSuffix | src/core/photo_service.py:117 | `Path(".jpg").suffix` is empty |
| PhotoService.NewClusterIdsDistinct | src/core/photo_service.py:79 | `person_<n>` ids built from different numbers differ |
| PhotoService.FreshClusterId | src/core/photo_service.py:79-81 | the id drawn from the counter is not a live cluster id |
| PhotoService.AnyNear | src/core/photo_service.py:72-73 | an empty cluster is far; a result other than far is the probe of some member |
| PhotoService.AnyNearMeaning | src/core/photo_service.py:72-73 | the `any` over a cluster's members is `Far` iff every member compares far; otherwise it is the probe of the first member that is not far |
| PhotoService.FirstMatch | src/core/photo_service.py:71-75 | a matched cluster is a live cluster |
| PhotoService.FirstMatchMeaning | src/core/photo_service.py:71-75 | no match iff no cluster has a near member; otherwise the result comes from the first cluster, in dict order, whose probe is not far, and later clusters are not examined |
| PhotoService.OutputName | src/core/photo_service.py:87 | the copy's name is the person's name, `_`, the decimal size and then the photo's suffix, each recoverable by position |
| PhotoService.OutputNamesDiffer | src/core/photo_service.py:87 | two output names for the same person name are equal only when their cluster sizes are |
| PhotoService.JoinCluster | src/core/photo_service.py:84 | only the matched cluster's list grows, by the photo at its end; names, order and counter are kept, and the invariant holds |
| PhotoService.StartCluster | src/core/photo_service.py:77-84 | a fresh id is added at the end of both dicts, holding just the photo and named after itself; the invariant holds |
| PhotoService.NewPhoto | src/core/photo_service.py:59-91 | processing keeps the invariant; every outcome but `Added` leaves the state unchanged; `NoFaces` iff the detector found no face |
| PhotoService.JoinsFirstMatch | src/core/photo_service.py:67-87 | on a match, the photo joins that cluster at its end, nothing else changes, and the output name is the cluster's name, its new size and the photo's suffix |
| PhotoService.StartsNewCluster | src/core/photo_service.py:77-87 | without a match, a fresh cluster holding only the photo is created under a name equal to its id, and the output name is `<id>_1<suffix>` |
| PhotoService.FailureChangesNothing | src/core/photo_service.py:61-64 | a detector failure, no faces, or a comparison that raises leaves both dicts unchanged and copies nothing |
| PhotoService.Holder | src/core/photo_service.py:95-96 | a holder found is a live cluster containing the photo |
| PhotoService.HolderMeaning | src/core/photo_service.py:95-101 | no holder iff no cluster contains the photo; otherwise it is the first cluster, in dict order, that does |
| PhotoService.Deleted | src/core/photo_service.py:93-101 | deletion keeps the invariant and the counter |
| PhotoService.RemovedFrom | src/core/photo_service.py:97-100 | removing the photo from the cluster that lists it keeps the invariant and the counter |
| PhotoService.DeletingUnknownPhoto | src/core/photo_service.py:93-101 | deleting a photo no cluster holds changes nothing |
| PhotoService.DeletingKnownPhoto | src/core/photo_service.py:95-101 | only the first holder loses one occurrence of the photo, its list becoming `RemoveFirst` of the old one; it and its name are deleted iff it becomes empty, and only then does the key order change, by dropping that id; every other cluster and name is unchanged |
| PhotoService.PhotoService.constructor | src/core/photo_service.py:26-31 | a new service has the given folders and no clusters or names |
| PhotoService.PhotoService.ProcessNewPhoto | src/core/photo_service.py:59-91 | the new state and outcome are those of `NewPhoto` on the old state, and the invariant holds |
| PhotoService.PhotoService.FindCluster | src/core/photo_service.py:70-75 | the loop with `break` finds the first match of `FirstMatch` and changes nothing |
| PhotoService.PhotoService.AddToCluster | src/core/photo_service.py:77-87 | the photo joins the matched cluster, or a fresh cluster from the counter, and the output name uses the cluster's name and new size |
| PhotoService.PhotoService.OpenCluster | src/core/photo_service.py:78-81 | a fresh id gets an empty list and a name equal to itself, and the counter advances |
| PhotoService.PhotoService.AppendPhoto | src/core/photo_service.py:84 | the photo is appended to the cluster's list and nothing else changes |
| PhotoService.PhotoService.HandleDeletedPhoto | src/core/photo_service.py:93-101 | the new state is `Deleted` of the old state, and the invariant holds |
| PhotoService.PhotoService.FindHolder | src/core/photo_service.py:95-96 | the loop up to the `break` finds the first cluster, in dict order, that lists the photo, and changes nothing |
| PhotoService.PhotoService.RemovePhoto | src/core/photo_service.py:97-100 | the new state is `RemovedFrom` of the old state: one occurrence leaves the list, and an emptied cluster is deleted with its name |
| PhotoService.PhotoService.RenamePerson | src/core/photo_service.py:103-106 | a known id gets the new name in place; an unknown id changes nothing; the clusters never change |
| PhotoService.PhotoEventHandler.constructor | src/core/photo_service.py:11-12 | the handler is bound to its service |
| PhotoService.PhotoEventHandler.OnCreated | src/core/photo_service.py:14-16 | a create event is forwarded iff it is a file the handler's test accepts, and then the service processes it; otherwise nothing changes |
| PhotoService.PhotoEventHandler.OnDeleted | src/core/photo_service.py:18-20 | a delete event is forwarded iff it is a file the handler's test accepts, and then the service deletes the photo; otherwise nothing changes |
| PhotoService.NewIdAsWritten | src/core/photo_service.py:79 | line 79's id is `person_<n>` for the number n of live clusters |
| PhotoService.CounterIdMatchesAsWritten | src/core/photo_service.py:79 | the counter is never below the number of clusters, and the counter's next id is line 79's id exactly when every id ever handed out is still live |
| PhotoService.AddUnmatchedAsWritten | src/core/photo_service.py:77-84 | as written, for every state, the `person_<len>` id's list becomes exactly `[photo]` and its name becomes the id; when that id was live its old list and name are lost and the key order is unchanged |
| PhotoService.AsWrittenReusesLiveId | src/core/photo_service.py:79-80 | after a deletion the `person_<len>` id can be a live cluster, whose photos line 80 then throws away |
| PhotoService.NewPhotoKeepsPhotos | src/core/photo_service.py:77-84 | with ids from the counter, processing a photo never loses a photo: every cluster survives and its old list is a prefix of its new one |
| FolderMonitor.Passes | src/core/folder_monitor.py:20 | the filter of lines 20 and 28: the lower-cased path ends with one of the extensions, used as given |
| FolderMonitor.DefaultFilter | src/core/folder_monitor.py:13-20 | with the default extensions a path passes iff its lower-cased form ends with `.jpg`, `.jpeg` or `.png` |
| FolderMonitor.FilterIgnoresCase | src/core/folder_monitor.py:20 | the filter does not depend on the case of the path |
| FolderMonitor.UpperExtensionNeverMatches | src/core/folder_monitor.py:20 | extensions are not lower-cased, so extensions that each hold an upper-case letter never match any path |
| FolderMonitor.PhotoFolderHandler.constructor | src/core/folder_monitor.py:9-15 | no extensions, or an empty list, selects the default extensions; the queue and the trace start empty |
| FolderMonitor.PhotoFolderHandler.OnCreated | src/core/folder_monitor.py:17-23 | a matching file event adds its path to the queue and calls `callback` once; anything else changes nothing; the queue never shrinks |
| FolderMonitor.PhotoFolderHandler.OnDeleted | src/core/folder_monitor.py:25-29 | a matching file event calls `deletion_callback` once and never `callback`; anything else changes nothing; the queue is untouched |
| FolderMonitor.FolderMonitor.constructor | src/core/folder_monitor.py:32-38 | a new monitor is stopped and has no observer or handler |
| FolderMonitor.FolderMonitor.Start | src/core/folder_monitor.py:40-46 | a stopped monitor builds a fresh default handler and a fresh started observer watching the folder recursively, and runs; a running one keeps its handler and observer |
| FolderMonitor.FolderMonitor.Stop | src/core/folder_monitor.py:48-52 | a running monitor stops and joins its observer and is no longer running; otherwise nothing changes |
| FolderMonitor.FolderMonitor.IsActive | src/core/folder_monitor.py:54-55 | `is_active` returns the running flag |

## Left out

- Concurrency. The watchdog observer's thread, `threading.Lock` and asynchronous event delivery are left out. Handlers are called sequentially.
- The Qt user interface. Widgets, dialogs, signals, `ProcessingThread` and message boxes are left out. A card is reduced to its person and its checkbox.
- Thumbnail selection. It works on floating-point means and norms.
- The face detector and DBSCAN. The detector is a function parameter. DBSCAN's clustering is a parameter whose only promise is the connected-components labelling. Euclidean distance over floats is an abstract relation.
- File-system effects are left out. This covers the photo copy (`shutil.copy2`), the output-folder creation, the file renames in `PhotoService.rename_person`, and the export code. The model computes the output file name but does not copy the file.
- `PhotoService.start` and `_process_existing_photos` are left out. They glob the folder, run a sleep loop and wait for a keyboard interrupt.
- Exceptions inside `scan_folder` other than the `AttributeError` at line 30 (those of `os.listdir`, the detector or DBSCAN) are left out. The detector is total there.
- Recognizer.FaceRecognizer.ScanFolder: models the corrected scan, which never raises at line 30; the code's behaviour, where every scan after one that found a face raises `AttributeError` after emptying `face_data` and `people`, is `ScanFolderAsWritten`.
- Strings.JoinPath: other `ntpath.join` cases (a name that is absolute or carries a drive) are left out; the names come from `os.listdir` and are plain.
- Within `process_new_photo`, the re-detection of each cluster member and the `[0]` that may raise are folded into the comparison parameter, whose `Fails` result stands for any exception.
- `str.lower` is modelled on ASCII letters only. Paths follow the Windows flavour of `os.path` and `pathlib`: `/` and `\` both separate.
- Person records are values. The aliasing between a card's person and the registry's person object is not modelled, so the cards are rebuilt from the registry after a merge, as the code does.
- Recognizer.ProgressValue: computes `(i + 1) * 100 / total` exactly with integer division, where the code truncates a floating-point product; the two can differ by one when rounding makes the product fall just below a whole number.
- PhotoService.AnyNearMeaning: the threshold test `< 0.6` is inside the comparison parameter and is not modelled as a number.
- PhotoService.StartCluster: the new id is `person_<counter>`, not line 79's `person_<len(face_clusters)>`; the two differ whenever a cluster has been pruned, so ids and output names differ from the code's after any deletion that empties a cluster. The counter avoids the overwrite described under "## Findings".
- PhotoService.NewPhoto: a photo that matches no cluster gets its id from the counter, not from line 79; ids and output names differ from the code's whenever a cluster has been pruned (see `CounterIdMatchesAsWritten`).
- PhotoService.StartsNewCluster: the fresh id and the output name `<id>_1<suffix>` come from the counter, not from line 79, and differ from the code's whenever a cluster has been pruned.
- PhotoService.PhotoService.ProcessNewPhoto: its new state is that of `NewPhoto`, so new cluster ids and output names come from the counter and differ from line 79's whenever a cluster has been pruned.
- PhotoService.PhotoService.AddToCluster: the unmatched branch takes its id from the counter, not from line 79, and differs from the code's whenever a cluster has been pruned.
- PhotoService.PhotoService.OpenCluster: the id is `person_<nextId>` and the counter advances, where line 79 uses `len(face_clusters)`; the two differ whenever a cluster has been pruned.
- Watchdog.Observer: the observer only records the calls it receives; scheduling, starting and stopping have no effect on event delivery in the model.
- The callbacks a `FolderMonitor` passes on are not modelled as code. The handler records the calls it would make.

## Findings

| source | as written | input that shows it | evidently intended | confidence | as-written member | corrected member |
|---|---|---|---|---|---|---|
| src/core/photo_service.py:79-80 | a new cluster gets the id `person_<len(face_clusters)>`, and line 80 stores an empty list under it | clusters `person_0`, `person_1`; deleting the only photo of `person_0` leaves one cluster, so the next unmatched photo gets `person_1`, which is live; line 80 replaces `person_1`'s photos with `[]` and the photo is added to that list | a fresh id that no live cluster has, so no existing cluster is overwritten | not executed | PhotoService.AsWrittenReusesLiveId | PhotoService.NewPhotoKeepsPhotos |
| src/core/face_recognizer.py:30-48 | line 48 stores `db.labels_`, a numpy array, and line 30 calls `self.cluster_labels.clear()`, which an array does not have | scan a folder with one encoded face, then scan any folder with the same recognizer (the window reuses one, main_window.py:156 and :232): line 30 raises `AttributeError` after lines 28-29 have emptied `face_data` and `people` | every scan starts afresh, the labels being kept as a list | not executed | Recognizer.RescanFailsAsWritten | Recognizer.RescanRebuilds |

=== FILE: dicts.dfy ===
/** Python's `dict`: a finite map that also remembers the order in which its
    keys were first inserted. Assigning to an existing key keeps its place;
    a new key goes to the end; deleting a key removes it from the order. */
module Dicts {
  import opened Util

  datatype Dict<K, V> = Dict(keys: seq<K>, entries: map<K, V>)

  /** The order lists every key of the map exactly once. */
  ghost predicate Valid<K, V>(d: Dict<K, V>) {
    NoDup(d.keys) && d.entries.Keys == set k | k in d.keys
  }

  function Empty<K, V>(): (d: Dict<K, V>)
    ensures Valid(d) && d.entries == map[]
  {
    Dict([], map[])
  }

  /** `d[k] = v` */
  function Put<K, V>(d: Dict<K, V>, k: K, v: V): (r: Dict<K, V>)
    requires Valid(d)
    ensures Valid(r)
    ensures r.entries == d.entries[k := v]
    ensures k in d.entries ==> r.keys == d.keys
    ensures k !in d.entries ==> r.keys == d.keys + [k]
  {
    Dict(if k in d.entries then d.keys else d.keys + [k], d.entries[k := v])
  }

  /** `del d[k]` */
  function Delete<K, V>(d: Dict<K, V>, k: K): (r: Dict<K, V>)
    requires Valid(d)
    ensures Valid(r)
    ensures r.entries == d.entries - {k}
    ensures r.keys == Without(d.keys, k)
  {
    Dict(Without(d.keys, k), d.entries - {k})
  }

  /** `list(d.values())` */
  function Values<K, V>(d: Dict<K, V>): (r: seq<V>)
    requires Valid(d)
    ensures |r| == |d.keys|
    ensures forall i :: 0 <= i < |r| ==> r[i] == d.entries[d.keys[i]]
  {
    seq(|d.keys|, i requires 0 <= i < |d.keys| => d.entries[d.keys[i]])
  }

  /** `len(d)` is the number of keys in the order. */
  lemma CardOfKeys<K, V>(d: Dict<K, V>)
    requires Valid(d)
    ensures |d.entries| == |d.keys|
  {
    NoDupSize(d.keys);
    assert |d.entries| == |d.entries.Keys|;
  }

  /** A second assignment to the same key overrides the first. */
  lemma PutTwice<K, V>(d: Dict<K, V>, k: K, v: V, w: V)
    requires Valid(d)
    ensures Put(Put(d, k, v), k, w) == Put(d, k, w)
  {
    assert d.entries[k := v][k := w] == d.entries[k := w];
  }
}

=== FILE: folder_monitor.dfy ===
/** The folder watcher: a handler that filters file-system events by
    extension and forwards them, and a monitor that owns the observer and
    a running flag. The two callbacks are recorded as a trace of calls in
    the order they were made. */
module FolderMonitor {
  import opened Util
  import opened Strings
  import opened Watchdog

  /** Used when the handler is given no extensions, or an empty list. */
  const DefaultExtensions: seq<string> := [".jpg", ".jpeg", ".png"]

  /** The filter of lines 20 and 28: the lower-cased path ends with one of
      the extensions, which are themselves used as given. */
  predicate Passes(extensions: seq<string>, path: string) {
    EndsWithAny(Lower(path), extensions)
  }

  /** A call made by the handler: `callback(path)` or `deletion_callback(path)`. */
  datatype Callback = Created(path: string) | Deleted(path: string)

  predicate HasUpper(s: string) {
    exists i :: 0 <= i < |s| && 'A' <= s[i] <= 'Z'
  }

  lemma LowerHasNoUpper(s: string)
    ensures !HasUpper(Lower(s))
  {
  }

  /** With the default extensions, a path passes exactly when its
      lower-cased form ends with `.jpg`, `.jpeg` or `.png`. */
  lemma DefaultFilter(path: string)
    ensures Passes(DefaultExtensions, path)
        <==> EndsWith(Lower(path), ".jpg") || EndsWith(Lower(path), ".jpeg") || EndsWith(Lower(path), ".png")
  {
    var l := Lower(path);
    if EndsWith(l, ".jpg") {
      assert EndsWith(l, DefaultExtensions[0]);
    } else if EndsWith(l, ".jpeg") {
      assert EndsWith(l, DefaultExtensions[1]);
    } else if EndsWith(l, ".png") {
      assert EndsWith(l, DefaultExtensions[2]);
    } else {
      forall j | 0 <= j < |DefaultExtensions|
        ensures !EndsWith(l, DefaultExtensions[j])
      {
        assert j == 0 || j == 1 || j == 2;
      }
    }
  }

  /** The filter does not depend on the case of the path. */
  lemma FilterIgnoresCase(extensions: seq<string>, path: string)
    ensures Passes(extensions, Lower(path)) == Passes(extensions, path)
  {
    assert Lower(Lower(path)) == Lower(path);
  }

  /** Only the path is lower-cased: an extension holding an upper-case
      letter can never match, whatever the path. */
  lemma UpperExtensionNeverMatches(extensions: seq<string>, path: string)
    requires forall j :: 0 <= j < |extensions| ==> HasUpper(extensions[j])
    ensures !Passes(extensions, path)
  {
    var l := Lower(path);
    LowerHasNoUpper(path);
    forall j | 0 <= j < |extensions|
      ensures !EndsWith(l, extensions[j])
    {
      var ext := extensions[j];
      var i :| 0 <= i < |ext| && 'A' <= ext[i] <= 'Z';
      if |ext| <= |l| {
        assert l[|l| - |ext|..][i] != ext[i];
      }
    }
  }

  class PhotoFolderHandler {
    const supportedExtensions: seq<string>
    var processingQueue: set<string>
    var calls: seq<Callback>

    /** Line 13: `supported_extensions or [...]` falls back to the default
        both for `None` and for an empty list. */
    constructor(extensions: Option<seq<string>>)
      ensures supportedExtensions == (if extensions.None? || extensions.value == [] then DefaultExtensions else extensions.value)
      ensures processingQueue == {} && calls == []
    {
      supportedExtensions := if extensions.None? || extensions.value == [] then DefaultExtensions else extensions.value;
      processingQueue := {};
      calls := [];
    }

    /** `on_created`: a file that passes the filter is queued and forwarded
        once; the queue only grows. */
    method OnCreated(event: FileSystemEvent)
      modifies this
      ensures !event.isDirectory && Passes(supportedExtensions, event.srcPath) ==>
        processingQueue == old(processingQueue) + {event.srcPath} && calls == old(calls) + [Created(event.srcPath)]
      ensures !(!event.isDirectory && Passes(supportedExtensions, event.srcPath)) ==>
        processingQueue == old(processingQueue) && calls == old(calls)
      ensures old(processingQueue) <= processingQueue
    {
      if !event.isDirectory {
        var filePath := event.srcPath;
        if Passes(supportedExtensions, filePath) {
          processingQueue := processingQueue + {filePath};
          calls := calls + [Created(filePath)];
        }
      }
    }

    /** `on_deleted`: a file that passes the filter is forwarded once to the
        deletion callback; the queue is left alone. */
    method OnDeleted(event: FileSystemEvent)
      modifies this
      ensures !event.isDirectory && Passes(supportedExtensions, event.srcPath) ==>
        calls == old(calls) + [Deleted(event.srcPath)]
      ensures !(!event.isDirectory && Passes(supportedExtensions, event.srcPath)) ==> calls == old(calls)
      ensures processingQueue == old(processingQueue)
    {
      if !event.isDirectory {
        var filePath := event.srcPath;
        if Passes(supportedExtensions, filePath) {
          calls := calls + [Deleted(filePath)];
        }
      }
    }
  }

  class FolderMonitor {
    const folderPath: string
    var observer: Observer?
    var handler: PhotoFolderHandler?
    var isRunning: bool

    /** While running there is an observer and a handler. */
    ghost predicate Valid()
      reads this
    {
      isRunning ==> observer != null && handler != null
    }

    constructor(folderPath: string)
      ensures this.folderPath == folderPath
      ensures observer == null && handler == null && !isRunning
      ensures Valid()
    {
      this.folderPath := folderPath;
      observer, handler := null, null;
      isRunning := false;
    }

    /** `start`: a stopped monitor builds a fresh handler with the default
        extensions and a fresh observer watching the folder recursively; a
        running one keeps its handler and observer. */
    method Start()
      requires Valid()
      modifies this
      ensures Valid() && isRunning
      ensures old(isRunning) ==> handler == old(handler) && observer == old(observer)
      ensures !old(isRunning) ==>
        && handler != null && fresh(handler)
        && handler.supportedExtensions == DefaultExtensions
        && handler.processingQueue == {} && handler.calls == []
        && observer != null && fresh(observer)
        && observer.watches == [Watch(handler, folderPath, true)]
        && observer.started && !observer.stopped && !observer.joined
    {
      if !isRunning {
        var h := new PhotoFolderHandler(None);
        var o := new Observer();
        o.Schedule(h, folderPath, true);
        o.Start();
        handler, observer := h, o;
        isRunning := true;
      }
    }

    /** `stop`: a running monitor stops and joins its observer and clears
        the flag; otherwise nothing happens. */
    method Stop()
      requires Valid()
      modifies this, observer
      ensures Valid() && !isRunning
      ensures handler == old(handler) && observer == old(observer)
      ensures old(isRunning) ==>
        && observer != null && observer.stopped && observer.joined
        && observer.started == old(observer.started) && observer.watches == old(observer.watches)
      ensures !old(isRunning) && observer != null ==> unchanged(observer)
    {
      if isRunning && observer != null {
        observer.Stop();
        observer.Join();
        isRunning := false;
      }
    }

    /** `is_active` */
    method IsActive() returns (active: bool)
      ensures active == isRunning
    {
      return isRunning;
    }
  }
}

=== FILE: main_window.dfy ===
/** The registry surgery done by `MainWindow`: merging the selected persons
    into the first selected one, and the order in which persons are shown. */
module MainWindow {
  import opened Util
  import opened Dicts
  import opened Recognizer

  /** A card on screen: the person it shows and whether its checkbox is ticked. */
  datatype PersonCard = PersonCard(person: Person, selected: bool)

  // ---------------------------------------------------------------------
  // Display order (line 257): sorted by photo count, largest first, stable
  // ---------------------------------------------------------------------

  function PhotoCount(p: Person): nat {
    |p.photoPaths|
  }

  /** Puts `p` in front of the first person whose count is not larger. */
  function InsertByCount(p: Person, s: seq<Person>): seq<Person> {
    if s == [] || PhotoCount(s[0]) <= PhotoCount(p) then [p] + s
    else [s[0]] + InsertByCount(p, s[1..])
  }

  /** `sorted(people, key=lambda p: len(p.photo_paths), reverse=True)` */
  function SortByCount(ps: seq<Person>): (r: seq<Person>)
    ensures multiset(r) == multiset(ps)
  {
    if ps == [] then []
    else
      InsertMultiset(ps[0], SortByCount(ps[1..]));
      assert ps == [ps[0]] + ps[1..];
      InsertByCount(ps[0], SortByCount(ps[1..]))
  }

  predicate NonIncreasing(s: seq<Person>) {
    forall a, b :: 0 <= a < b < |s| ==> PhotoCount(s[a]) >= PhotoCount(s[b])
  }

  /** The persons of `s` that have exactly `c` photos, in their order in `s`. */
  function WithCount(s: seq<Person>, c: nat): seq<Person> {
    if s == [] then []
    else (if PhotoCount(s[0]) == c then [s[0]] else []) + WithCount(s[1..], c)
  }

  lemma {:induction false} InsertMultiset(p: Person, s: seq<Person>)
    ensures multiset(InsertByCount(p, s)) == multiset(s) + multiset{p}
  {
    if s != [] && PhotoCount(s[0]) > PhotoCount(p) {
      InsertMultiset(p, s[1..]);
      assert s == [s[0]] + s[1..];
    }
  }

  lemma {:induction false} InsertKeepsOrder(p: Person, s: seq<Person>)
    requires NonIncreasing(s)
    ensures NonIncreasing(InsertByCount(p, s))
  {
    if s != [] && PhotoCount(s[0]) > PhotoCount(p) {
      InsertKeepsOrder(p, s[1..]);
      InsertMultiset(p, s[1..]);
      var r := InsertByCount(p, s[1..]);
      forall j | 0 <= j < |r| ensures PhotoCount(r[j]) <= PhotoCount(s[0]) {
        assert r[j] in multiset(r);
        if r[j] != p {
          assert r[j] in multiset(s[1..]);
          var k :| 0 <= k < |s[1..]| && s[1..][k] == r[j];
          assert s[k + 1] == r[j];
        }
      }
    }
  }

  lemma {:induction false} InsertWithCount(p: Person, s: seq<Person>, c: nat)
    ensures WithCount(InsertByCount(p, s), c) == (if PhotoCount(p) == c then [p] else []) + WithCount(s, c)
  {
    if s == [] || PhotoCount(s[0]) <= PhotoCount(p) {
    } else {
      InsertWithCount(p, s[1..], c);
      assert InsertByCount(p, s) == [s[0]] + InsertByCount(p, s[1..]);
    }
  }

  /** The display order is a permutation of the persons whose photo counts
      never increase along the list. */
  lemma {:induction false} SortByCountSorts(ps: seq<Person>)
    ensures NonIncreasing(SortByCount(ps))
    ensures multiset(SortByCount(ps)) == multiset(ps)
  {
    if ps != [] {
      SortByCountSorts(ps[1..]);
      InsertKeepsOrder(ps[0], SortByCount(ps[1..]));
      InsertMultiset(ps[0], SortByCount(ps[1..]));
      assert ps == [ps[0]] + ps[1..];
    }
  }

  /** The sort is stable: persons with the same photo count keep the order
      they had in `get_all_people()`. */
  lemma {:induction false} SortByCountIsStable(ps: seq<Person>, c: nat)
    ensures WithCount(SortByCount(ps), c) == WithCount(ps, c)
  {
    if ps != [] {
      SortByCountIsStable(ps[1..], c);
      InsertWithCount(ps[0], SortByCount(ps[1..]), c);
    }
  }

  /** The ids of the persons, in order. */
  function Ids(ps: seq<Person>): (r: seq<int>)
    ensures |r| == |ps| && forall i :: 0 <= i < |ps| ==> r[i] == ps[i].id
  {
    if ps == [] then [] else [ps[0].id] + Ids(ps[1..])
  }

  lemma {:induction false} InsertIds(p: Person, s: seq<Person>)
    ensures multiset(Ids(InsertByCount(p, s))) == multiset(Ids(s)) + multiset{p.id}
  {
    if s != [] && PhotoCount(s[0]) > PhotoCount(p) {
      InsertIds(p, s[1..]);
      assert Ids(s) == [s[0].id] + Ids(s[1..]);
    }
  }

  /** Sorting shows every id as often as before. */
  lemma {:induction false} SortByCountIds(ps: seq<Person>)
    ensures multiset(Ids(SortByCount(ps))) == multiset(Ids(ps))
  {
    if ps != [] {
      SortByCountIds(ps[1..]);
      InsertIds(ps[0], SortByCount(ps[1..]));
    }
  }

  /** The cards `update_people_grid` creates, checkboxes clear. */
  function Cards(ps: seq<Person>): (cards: seq<PersonCard>)
    ensures |cards| == |ps|
    ensures forall i :: 0 <= i < |ps| ==> cards[i].person == ps[i] && !cards[i].selected
  {
    seq(|ps|, i requires 0 <= i < |ps| => PersonCard(ps[i], false))
  }

  /** `[card.person.id for card in self.person_cards if card.is_selected()]` */
  function SelectedIds(cards: seq<PersonCard>): (ids: seq<int>)
    ensures forall id :: id in ids <==> exists c :: c in cards && c.selected && c.person.id == id
    ensures |ids| <= |cards|
  {
    if cards == [] then []
    else
      var rest := SelectedIds(cards[1..]);
      assert forall c :: c in cards <==> c == cards[0] || c in cards[1..];
      (if cards[0].selected then [cards[0].person.id] else []) + rest
  }

  /** The ids keep the order of the cards: selecting from two runs of cards
      gives the ids of the first run followed by those of the second. */
  lemma {:induction false} SelectedIdsAppend(a: seq<PersonCard>, b: seq<PersonCard>)
    ensures SelectedIds(a + b) == SelectedIds(a) + SelectedIds(b)
  {
    if a != [] {
      SelectedIdsAppend(a[1..], b);
      assert (a + b)[1..] == a[1..] + b;
      assert (a + b)[0] == a[0];
    } else {
      assert a + b == b;
    }
  }

  /** The first selected id, the one the merge keeps, belongs to the first
      ticked card. */
  lemma {:induction false} SelectedIdsFirst(cards: seq<PersonCard>)
    requires SelectedIds(cards) != []
    ensures exists k :: && 0 <= k < |cards| && cards[k].selected
                        && (forall j :: 0 <= j < k ==> !cards[j].selected)
                        && SelectedIds(cards)[0] == cards[k].person.id
  {
    if !cards[0].selected {
      SelectedIdsFirst(cards[1..]);
      var k :| && 0 <= k < |cards[1..]| && cards[1..][k].selected
               && (forall j :: 0 <= j < k ==> !cards[1..][j].selected)
               && SelectedIds(cards[1..])[0] == cards[1..][k].person.id;
      assert cards[k + 1] == cards[1..][k];
      forall j | 0 <= j < k + 1
        ensures !cards[j].selected
      {
        if j > 0 {
          assert cards[j] == cards[1..][j - 1];
        }
      }
    }
  }

  /** Cards that show distinct persons. */
  predicate DistinctCards(cards: seq<PersonCard>) {
    forall a, b :: 0 <= a < b < |cards| ==> cards[a].person.id != cards[b].person.id
  }

  lemma {:induction false} SelectedIdsDistinct(cards: seq<PersonCard>)
    requires DistinctCards(cards)
    ensures NoDup(SelectedIds(cards))
  {
    if cards != [] {
      SelectedIdsDistinct(cards[1..]);
      forall c | c in cards[1..]
        ensures c.person.id != cards[0].person.id
      {
        var k :| 0 <= k < |cards[1..]| && cards[1..][k] == c;
        assert cards[k + 1] == c;
      }
      var rest := SelectedIds(cards[1..]);
      var r := SelectedIds(cards);
      if cards[0].selected {
        assert r == [cards[0].person.id] + rest;
        forall i, j | 0 <= i < j < |r|
          ensures r[i] != r[j]
        {
          assert r[j] == rest[j - 1] && rest[j - 1] in rest;
          if i > 0 {
            assert r[i] == rest[i - 1];
          }
        }
      }
    }
  }

  // ---------------------------------------------------------------------
  // Merge (lines 266-279)
  // ---------------------------------------------------------------------

  /** `main` after the three `extend`/`update` calls with `other`. */
  function Absorb(main: Person, other: Person): Person {
    main.(faceEncodings := main.faceEncodings + other.faceEncodings,
          photoPaths := main.photoPaths + other.photoPaths,
          faceIndices := main.faceIndices + other.faceIndices)
  }

  /** One turn of the merge loop. `None` stands for the `KeyError` raised
      when `main` is missing but `other` is present. */
  function MergeStep(people: Dict<int, Person>, mainId: int, otherId: int): (r: Option<Dict<int, Person>>)
    requires Valid(people)
    ensures r.Some? ==> Valid(r.value)
  {
    if otherId !in people.entries then Some(people)
    else if mainId !in people.entries then None
    else Some(Delete(Put(people, mainId, Absorb(people.entries[mainId], people.entries[otherId])), otherId))
  }

  /** The whole merge loop over `others`, stopping at a `KeyError`. */
  function MergeAll(people: Dict<int, Person>, mainId: int, others: seq<int>): (r: Option<Dict<int, Person>>)
    requires Valid(people)
    ensures r.Some? ==> Valid(r.value)
    decreases |others|
  {
    if others == [] then Some(people)
    else
      match MergeStep(people, mainId, others[0])
      case None => None
      case Some(next) => MergeAll(next, mainId, others[1..])
  }

  /** The face lists of the present persons among `ids`, in order. */
  function AbsorbedIndices(people: Dict<int, Person>, ids: seq<int>): seq<nat> {
    if ids == [] then []
    else (if ids[0] in people.entries then people.entries[ids[0]].faceIndices else []) + AbsorbedIndices(people, ids[1..])
  }

  /** The encoding lists of the present persons among `ids`, in order. */
  function AbsorbedEncodings(people: Dict<int, Person>, ids: seq<int>): seq<Encoding> {
    if ids == [] then []
    else (if ids[0] in people.entries then people.entries[ids[0]].faceEncodings else []) + AbsorbedEncodings(people, ids[1..])
  }

  /** The union of the photo sets of the present persons among `ids`. */
  function AbsorbedPaths(people: Dict<int, Person>, ids: seq<int>): set<string> {
    if ids == [] then {}
    else (if ids[0] in people.entries then people.entries[ids[0]].photoPaths else {}) + AbsorbedPaths(people, ids[1..])
  }

  /** The absorbed lists depend only on the persons named in `ids`. */
  lemma {:induction false} AbsorbedFrame(a: Dict<int, Person>, b: Dict<int, Person>, ids: seq<int>)
    requires forall x :: x in ids ==> (x in a.entries <==> x in b.entries)
    requires forall x :: x in ids && x in a.entries ==> a.entries[x] == b.entries[x]
    ensures AbsorbedIndices(a, ids) == AbsorbedIndices(b, ids)
    ensures AbsorbedEncodings(a, ids) == AbsorbedEncodings(b, ids)
    ensures AbsorbedPaths(a, ids) == AbsorbedPaths(b, ids)
  {
    if ids != [] {
      var first := ids[0];
      assert first in ids;
      assert forall x :: x in ids[1..] ==> x in ids;
      AbsorbedFrame(a, b, ids[1..]);
    }
  }

  /** One absorbing step: `mainId` holds the joined person, `otherId` is gone. */
  lemma MergeStepEntries(people: Dict<int, Person>, mainId: int, otherId: int)
    requires Valid(people) && mainId in people.entries && otherId in people.entries && mainId != otherId
    ensures MergeStep(people, mainId, otherId).Some?
    ensures MergeStep(people, mainId, otherId).value.entries
      == people.entries[mainId := Absorb(people.entries[mainId], people.entries[otherId])] - {otherId}
  {
  }

  /** Merging into a present `mainId` never raises; afterwards exactly the
      selected others are gone. */
  lemma {:induction false} MergeKeys(people: Dict<int, Person>, mainId: int, others: seq<int>)
    requires Valid(people) && mainId in people.entries && mainId !in others
    ensures MergeAll(people, mainId, others).Some?
    ensures forall k :: k in MergeAll(people, mainId, others).value.entries <==> k in people.entries && k !in others
    decreases |others|
  {
    if others != [] {
      var o := others[0];
      assert forall x :: x in others <==> x == o || x in others[1..];
      if o in people.entries {
        MergeStepEntries(people, mainId, o);
      }
      MergeKeys(MergeStep(people, mainId, o).value, mainId, others[1..]);
    }
  }

  /** Every person other than the main one that survives the merge is
      exactly as it was. */
  lemma {:induction false} MergeKeepsUnselected(people: Dict<int, Person>, mainId: int, others: seq<int>)
    requires Valid(people) && mainId in people.entries && mainId !in others
    ensures MergeAll(people, mainId, others).Some?
    ensures var r := MergeAll(people, mainId, others).value;
      forall k :: k in r.entries && k != mainId ==> k in people.entries && r.entries[k] == people.entries[k]
    decreases |others|
  {
    MergeKeys(people, mainId, others);
    if others != [] {
      var o := others[0];
      assert forall x :: x in others[1..] ==> x in others;
      if o in people.entries {
        MergeStepEntries(people, mainId, o);
      }
      var next := MergeStep(people, mainId, o).value;
      MergeKeys(next, mainId, others[1..]);
      MergeKeepsUnselected(next, mainId, others[1..]);
    }
  }

  /** The main person after one turn of the loop. */
  lemma MainAfterStep(people: Dict<int, Person>, mainId: int, otherId: int)
    requires Valid(people) && mainId in people.entries && mainId != otherId
    ensures MergeStep(people, mainId, otherId).Some?
    ensures var next := MergeStep(people, mainId, otherId).value;
      && mainId in next.entries
      && next.entries[mainId] == (if otherId in people.entries then Absorb(people.entries[mainId], people.entries[otherId])
                                  else people.entries[mainId])
      && forall x :: x != otherId && x != mainId ==>
           (x in next.entries <==> x in people.entries) && (x in people.entries ==> next.entries[x] == people.entries[x])
  {
  }

  /** The tail of a list without repeats lacks its head. */
  lemma TailLacksHead(others: seq<int>)
    requires others != [] && NoDup(others)
    ensures NoDup(others[1..])
    ensures forall x :: x in others[1..] ==> x in others && x != others[0]
  {
    forall x | x in others[1..]
      ensures x in others && x != others[0]
    {
      var j :| 0 <= j < |others[1..]| && others[1..][j] == x;
      assert others[j + 1] == x;
    }
  }

  /** The main person's faces become its old list followed by each present
      other's list, in selection order; its id and name are kept. */
  lemma {:induction false} MergeMainFaces(people: Dict<int, Person>, mainId: int, others: seq<int>)
    requires Valid(people) && mainId in people.entries
    requires mainId !in others && NoDup(others)
    ensures MergeAll(people, mainId, others).Some?
    ensures var r := MergeAll(people, mainId, others).value;
      var m := people.entries[mainId];
      && mainId in r.entries
      && r.entries[mainId].faceIndices == m.faceIndices + AbsorbedIndices(people, others)
      && r.entries[mainId].id == m.id && r.entries[mainId].name == m.name
    decreases |others|
  {
    if others != [] {
      var o := others[0];
      TailLacksHead(others);
      MainAfterStep(people, mainId, o);
      var next := MergeStep(people, mainId, o).value;
      AbsorbedFrame(people, next, others[1..]);
      MergeMainFaces(next, mainId, others[1..]);
      MergeAllUnfold(people, mainId, others);
      var head := if o in people.entries then people.entries[o].faceIndices else [];
      ConcatStep(people.entries[mainId].faceIndices, next.entries[mainId].faceIndices, head,
                 AbsorbedIndices(people, others[1..]), MergeAll(people, mainId, others).value.entries[mainId].faceIndices);
    }
  }

  /** The main person's encodings are extended in the same order as its
      faces, so the two lists stay aligned. */
  lemma {:induction false} MergeMainEncodings(people: Dict<int, Person>, mainId: int, others: seq<int>)
    requires Valid(people) && mainId in people.entries
    requires mainId !in others && NoDup(others)
    ensures MergeAll(people, mainId, others).Some?
    ensures var r := MergeAll(people, mainId, others).value;
      var m := people.entries[mainId];
      && mainId in r.entries
      && r.entries[mainId].faceEncodings == m.faceEncodings + AbsorbedEncodings(people, others)
    decreases |others|
  {
    if others != [] {
      var o := others[0];
      TailLacksHead(others);
      MainAfterStep(people, mainId, o);
      var next := MergeStep(people, mainId, o).value;
      AbsorbedFrame(people, next, others[1..]);
      MergeMainEncodings(next, mainId, others[1..]);
      MergeAllUnfold(people, mainId, others);
      var head := if o in people.entries then people.entries[o].faceEncodings else [];
      ConcatStep(people.entries[mainId].faceEncodings, next.entries[mainId].faceEncodings, head,
                 AbsorbedEncodings(people, others[1..]), MergeAll(people, mainId, others).value.entries[mainId].faceEncodings);
    }
  }

  /** Appending `h` and then `t` appends `h + t`. */
  lemma ConcatStep<T>(a: seq<T>, b: seq<T>, h: seq<T>, t: seq<T>, r: seq<T>)
    requires b == a + h && r == b + t
    ensures r == a + (h + t)
  {
  }

  /** With `mainId` present, the merge loop runs its first turn without
      raising and continues on the rest. */
  lemma MergeAllUnfold(people: Dict<int, Person>, mainId: int, others: seq<int>)
    requires Valid(people) && mainId in people.entries && others != []
    ensures MergeStep(people, mainId, others[0]).Some?
    ensures MergeAll(people, mainId, others) == MergeAll(MergeStep(people, mainId, others[0]).value, mainId, others[1..])
  {
  }

  /** The main person's photos become the union of all merged photos. */
  lemma {:induction false} MergeMainPhotos(people: Dict<int, Person>, mainId: int, others: seq<int>)
    requires Valid(people) && mainId in people.entries
    requires mainId !in others && NoDup(others)
    ensures MergeAll(people, mainId, others).Some?
    ensures var r := MergeAll(people, mainId, others).value;
      var m := people.entries[mainId];
      && mainId in r.entries
      && r.entries[mainId].photoPaths == m.photoPaths + AbsorbedPaths(people, others)
    decreases |others|
  {
    if others != [] {
      var o := others[0];
      TailLacksHead(others);
      MainAfterStep(people, mainId, o);
      var next := MergeStep(people, mainId, o).value;
      AbsorbedFrame(people, next, others[1..]);
      MergeMainPhotos(next, mainId, others[1..]);
    }
  }

  /** Joining two persons with disjoint faces gives a consistent person. */
  lemma AbsorbConsistent(pm: Person, po: Person, mainId: int, otherId: int, faceData: seq<FaceRecord>)
    requires ConsistentPerson(pm, mainId, faceData) && ConsistentPerson(po, otherId, faceData)
    requires forall i :: i in pm.faceIndices ==> i !in po.faceIndices
    ensures ConsistentPerson(Absorb(pm, po), mainId, faceData)
  {
    var merged := Absorb(pm, po);
    var s := merged.faceIndices;
    forall a, b | 0 <= a < b < |s|
      ensures s[a] != s[b]
    {
      if b < |pm.faceIndices| || a >= |pm.faceIndices| {
      } else {
        assert s[a] in pm.faceIndices;
        assert s[b] == po.faceIndices[b - |pm.faceIndices|];
      }
    }
    assert forall i :: i in s <==> i in pm.faceIndices || i in po.faceIndices;
    assert merged.faceEncodings == EncodingsAt(s, faceData);
  }

  /** One absorbing step keeps the persons' face lists pairwise disjoint. */
  lemma MergeStepKeepsDisjoint(people: Dict<int, Person>, mainId: int, otherId: int)
    requires Valid(people) && Disjoint(people)
    requires mainId != otherId && mainId in people.entries && otherId in people.entries
    ensures Disjoint(MergeStep(people, mainId, otherId).value)
  {
    MergeStepEntries(people, mainId, otherId);
    var r := MergeStep(people, mainId, otherId).value;
    forall k1, k2, i | k1 in r.entries && k2 in r.entries && i in r.entries[k1].faceIndices && i in r.entries[k2].faceIndices
      ensures k1 == k2
    {
      var o1 := if k1 == mainId && i !in people.entries[mainId].faceIndices then otherId else k1;
      var o2 := if k2 == mainId && i !in people.entries[mainId].faceIndices then otherId else k2;
      assert i in people.entries[o1].faceIndices && i in people.entries[o2].faceIndices;
    }
  }

  /** One absorbing step keeps the registry invariant: the joined person is
      consistent, the face lists stay disjoint and no face loses its owner. */
  lemma MergeStepKeepsRegistry(people: Dict<int, Person>, faceData: seq<FaceRecord>, mainId: int, otherId: int)
    requires RegistryInvariant(people, faceData)
    requires mainId != otherId && mainId in people.entries && otherId in people.entries
    ensures RegistryInvariant(MergeStep(people, mainId, otherId).value, faceData)
  {
    var pm, po := people.entries[mainId], people.entries[otherId];
    MergeStepEntries(people, mainId, otherId);
    MergeStepKeepsDisjoint(people, mainId, otherId);
    AbsorbConsistent(pm, po, mainId, otherId, faceData);
    var r := MergeStep(people, mainId, otherId).value;
    forall i | 0 <= i < |faceData|
      ensures Owned(r, i)
    {
      assert Owned(people, i);
      var k :| k in people.entries && i in people.entries[k].faceIndices;
      var owner := if k == otherId then mainId else k;
      assert i in r.entries[owner].faceIndices;
    }
  }

  /** The whole merge keeps the registry invariant; in particular the
      persons' face lists stay pairwise disjoint. */
  lemma {:induction false} MergeKeepsRegistry(people: Dict<int, Person>, faceData: seq<FaceRecord>, mainId: int, others: seq<int>)
    requires RegistryInvariant(people, faceData)
    requires mainId !in others
    requires MergeAll(people, mainId, others).Some?
    ensures RegistryInvariant(MergeAll(people, mainId, others).value, faceData)
    decreases |others|
  {
    if others != [] {
      var o := others[0];
      assert forall x :: x in others[1..] ==> x in others;
      if o in people.entries {
        MergeStepKeepsRegistry(people, faceData, mainId, o);
      }
      MergeKeepsRegistry(MergeStep(people, mainId, o).value, faceData, mainId, others[1..]);
    }
  }

  /** When `mainId` is missing nothing is merged: either the loop skips
      every id, or the first present one raises before any change. */
  lemma {:induction false} MergeWithoutMain(people: Dict<int, Person>, mainId: int, others: seq<int>)
    requires Valid(people) && mainId !in people.entries
    ensures MergeAll(people, mainId, others).Some? ==> MergeAll(people, mainId, others).value == people
    ensures MergeAll(people, mainId, others).None? <==> exists o :: o in others && o in people.entries
    decreases |others|
  {
    if others != [] {
      MergeWithoutMain(people, mainId, others[1..]);
      assert forall o :: o in others <==> o == others[0] || o in others[1..];
    }
  }

  datatype MergeOutcome = TooFewSelected | Merged | MissingMain

  class MainWindow {
    const recognizer: FaceRecognizer
    var personCards: seq<PersonCard>

    ghost predicate Valid()
      reads this, recognizer
    {
      recognizer.Valid() && DistinctCards(personCards)
    }

    constructor()
      ensures Valid() && fresh(recognizer)
      ensures recognizer.people == Empty() && recognizer.faceData == [] && personCards == []
    {
      recognizer := new FaceRecognizer(0.5);
      personCards := [];
    }

    /** `update_people_grid`: one card per person, largest photo count
        first, checkboxes clear. */
    method UpdatePeopleGrid()
      requires Valid()
      modifies this
      ensures Valid()
      ensures personCards == Cards(SortByCount(recognizer.GetAllPeople()))
    {
      var all := recognizer.GetAllPeople();
      var sorted := SortByCount(all);
      personCards := Cards(sorted);
      assert Ids(all) == recognizer.people.keys;
      SortByCountIds(all);
      NoDupPermutation(Ids(sorted), Ids(all));
    }

    /** The user ticks or clears the checkbox of one card. */
    method SetCardSelected(index: nat, checked: bool)
      requires Valid() && index < |personCards|
      modifies this
      ensures Valid()
      ensures personCards == old(personCards)[index := old(personCards)[index].(selected := checked)]
    {
      personCards := personCards[index := personCards[index].(selected := checked)];
    }

    /** `merge_selected`: with fewer than two ticked cards nothing changes;
        otherwise every other selected person is merged into the first
        selected one, and the cards are rebuilt. If the first selected id
        is no longer registered while another selected one still is, the
        lookup raises and nothing changes. */
    method MergeSelected() returns (outcome: MergeOutcome)
      requires Valid()
      modifies this, recognizer
      ensures Valid()
      ensures recognizer.faceData == old(recognizer.faceData)
      ensures recognizer.clusterLabels == old(recognizer.clusterLabels)
      ensures var sel := SelectedIds(old(personCards));
        && (|sel| < 2 ==>
              outcome == TooFewSelected && recognizer.people == old(recognizer.people)
              && personCards == old(personCards))
        && (|sel| >= 2 && MergeAll(old(recognizer.people), sel[0], sel[1..]).None? ==>
              outcome == MissingMain && recognizer.people == old(recognizer.people)
              && personCards == old(personCards))
        && (|sel| >= 2 && MergeAll(old(recognizer.people), sel[0], sel[1..]).Some? ==>
              outcome == Merged && recognizer.people == MergeAll(old(recognizer.people), sel[0], sel[1..]).value
              && personCards == Cards(SortByCount(recognizer.GetAllPeople())))
    {
      var selectedIds := SelectedIds(personCards);
      if |selectedIds| < 2 {
        return TooFewSelected;
      }
      SelectedIdsDistinct(personCards);
      var mainId := selectedIds[0];
      var others := selectedIds[1..];
      forall j | 0 <= j < |others|
        ensures others[j] != mainId
      {
        assert others[j] == selectedIds[j + 1];
      }
      ghost var initial := recognizer.people;
      for i := 0 to |others|
        invariant Dicts.Valid(recognizer.people)
        invariant MergeAll(initial, mainId, others) == MergeAll(recognizer.people, mainId, others[i..])
        invariant mainId !in initial.entries ==> recognizer.people == initial
        invariant mainId in initial.entries ==> mainId in recognizer.people.entries
        invariant RegistryInvariant(recognizer.people, recognizer.faceData)
        invariant recognizer.faceData == old(recognizer.faceData)
        invariant recognizer.clusterLabels == old(recognizer.clusterLabels)
        invariant personCards == old(personCards)
      {
        var otherId := others[i];
        assert others[i..] == [otherId] + others[i + 1..];
        if otherId in recognizer.people.entries {
          if mainId !in recognizer.people.entries {
            // `self.recognizer.people[main_id]` raises KeyError
            return MissingMain;
          }
          assert otherId != mainId;
          MergeStepKeepsRegistry(recognizer.people, recognizer.faceData, mainId, otherId);
          var main := recognizer.people.entries[mainId];
          var other := recognizer.people.entries[otherId];
          var merged := main.(faceEncodings := main.faceEncodings + other.faceEncodings,
                              photoPaths := main.photoPaths + other.photoPaths,
                              faceIndices := main.faceIndices + other.faceIndices);
          recognizer.people := Delete(Put(recognizer.people, mainId, merged), otherId);
        }
      }
      outcome := Merged;
      UpdatePeopleGrid();
    }
  }
}

=== FILE: photo_service.dfy ===
/** The incremental cluster service: `face_clusters` maps a cluster id to
    the photos in that cluster, `person_names` maps the same ids to display
    names, and a watchdog handler feeds created and deleted photos in. */
module PhotoService {
  import opened Util
  import opened Strings
  import opened Dicts
  import opened Watchdog
  import Recognizer

  type FaceLocation = Recognizer.FaceLocation

  // ---------------------------------------------------------------------
  // Which files are images
  // ---------------------------------------------------------------------

  /** The five image suffixes both `_is_image` checks use. */
  const ImageSuffixes: seq<string> := [".png", ".jpg", ".jpeg", ".bmp", ".gif"]

  /** `PhotoEventHandler._is_image`: the lower-cased path ends in one of them. */
  predicate HandlerIsImage(path: string) {
    EndsWithAny(Lower(path), ImageSuffixes)
  }

  /** `PhotoService._is_image`: the lower-cased `Path.suffix` is one of them. */
  predicate ServiceIsImage(path: string) {
    Lower(Suffix(path)) in ImageSuffixes
  }

  lemma LowerIdempotent(s: string)
    ensures Lower(Lower(s)) == Lower(s)
  {
  }

  /** The handler's test does not depend on the case of the path. */
  lemma HandlerIgnoresCase(path: string)
    ensures HandlerIsImage(Lower(path)) == HandlerIsImage(path)
  {
    LowerIdempotent(path);
  }

  /** Every path the service's test accepts, the handler's test accepts. */
  lemma ServiceImageIsHandlerImage(path: string)
    requires ServiceIsImage(path)
    ensures HandlerIsImage(path)
  {
    var suffix := Suffix(path);
    var j := IndexOf(ImageSuffixes, Lower(suffix));
    LowerTail(path, |path| - |suffix|);
    assert EndsWith(Lower(path), ImageSuffixes[j]);
  }

  /** The converse fails: a file named just ".jpg" has no suffix, so the
      handler forwards it but the service's own test rejects it. */
  lemma HiddenNameIsHandlerImageOnly()
    ensures HandlerIsImage(".jpg") && !ServiceIsImage(".jpg")
  {
    HiddenNameIsHandlerImage();
    HiddenNameIsNotServiceImage();
  }

  lemma HiddenNameIsNotServiceImage()
    ensures !ServiceIsImage(".jpg")
  {
    HiddenNameHasNoSuffix();
    var lowered := Lower(Suffix(".jpg"));
    assert |lowered| == 0;
    assert forall j :: 0 <= j < |ImageSuffixes| ==> |ImageSuffixes[j]| > 0;
  }

  lemma HiddenNameIsHandlerImage()
    ensures HandlerIsImage(".jpg")
  {
    var lowered := Lower(".jpg");
    assert lowered[0] == '.' && lowered[1] == 'j' && lowered[2] == 'p' && lowered[3] == 'g';
    assert lowered == ImageSuffixes[1];
    assert EndsWith(lowered, ImageSuffixes[1]);
  }

  lemma HiddenNameHasNoSuffix()
    ensures Suffix(".jpg") == []
  {
    var name := ".jpg";
    assert name[1] == 'j' && name[2] == 'p' && name[3] == 'g';
    PathNameWithoutSeparator(name);
  }

  /** A file named `<stem>.<ext>`, with a non-empty stem and an extension
      without dots, is an image for the service exactly when its
      lower-cased extension is `png`, `jpg`, `jpeg`, `bmp` or `gif`. */
  lemma ServiceIsImageByExtension(path: string, stem: string, ext: string)
    requires |stem| > 0 && |ext| > 0 && '.' !in ext
    requires PathName(path) == stem + "." + ext
    ensures ServiceIsImage(path) <==> "." + Lower(ext) in ImageSuffixes
  {
    var suffix := Suffix(path);
    assert suffix == "." + ext;
    LowerPrepend('.', ext);
  }

  // ---------------------------------------------------------------------
  // Service state
  // ---------------------------------------------------------------------

  /** `f"person_{n}"` */
  function NewClusterId(n: nat): string {
    "person_" + NatStr(n)
  }

  lemma NewClusterIdsDistinct(a: nat, b: nat)
    ensures NewClusterId(a) == NewClusterId(b) ==> a == b
  {
    if NewClusterId(a) == NewClusterId(b) {
      assert NewClusterId(a)[7..] == NatStr(a);
      assert NewClusterId(b)[7..] == NatStr(b);
      NatStrInjective(a, b);
    }
  }

  /** The two dicts of the service and the number of clusters ever created. */
  datatype ServiceState = ServiceState(
    faceClusters: Dict<string, seq<string>>,
    personNames: Dict<string, string>,
    nextId: nat)

  /** Both dicts list the same ids in the same order, no cluster is empty,
      and every id was handed out by the counter. */
  ghost predicate Consistent(s: ServiceState) {
    && Valid(s.faceClusters) && Valid(s.personNames)
    && s.personNames.keys == s.faceClusters.keys
    && (forall id :: id in s.faceClusters.entries ==> s.faceClusters.entries[id] != [])
    && (forall id :: id in s.faceClusters.entries ==> exists n: nat :: n < s.nextId && id == NewClusterId(n))
  }

  /** The id the counter hands out next is not in use. */
  lemma FreshClusterId(s: ServiceState)
    requires Consistent(s)
    ensures NewClusterId(s.nextId) !in s.faceClusters.entries
  {
    forall id | id in s.faceClusters.entries
      ensures id != NewClusterId(s.nextId)
    {
      var n: nat :| n < s.nextId && id == NewClusterId(n);
      NewClusterIdsDistinct(n, s.nextId);
    }
  }

  // ---------------------------------------------------------------------
  // process_new_photo (lines 59-91)
  // ---------------------------------------------------------------------

  /** Comparing the new face with one cluster member (re-detecting the
      member, line 72): within 0.6, not within it, or an exception. */
  datatype Probe = Near | Far | Fails

  /** `any(... < 0.6 for f in members)`: the first member that is not far
      decides; an exception propagates out of `any`. */
  function AnyNear(face: FaceLocation, members: seq<string>, compare: (FaceLocation, string) -> Probe): (r: Probe)
    ensures members == [] ==> r == Far
    ensures r != Far ==> exists m :: m in members && compare(face, m) == r
  {
    if members == [] then Far
    else if compare(face, members[0]) != Far then compare(face, members[0])
    else AnyNear(face, members[1..], compare)
  }

  /** `any` is false exactly when every member is far; otherwise its result
      is that of the first member that is not far. */
  lemma {:induction false} AnyNearMeaning(face: FaceLocation, members: seq<string>, compare: (FaceLocation, string) -> Probe)
    ensures var r := AnyNear(face, members, compare);
      && (r == Far <==> forall j :: 0 <= j < |members| ==> compare(face, members[j]) == Far)
      && (r != Far ==> exists j :: (&& 0 <= j < |members| && compare(face, members[j]) == r
                                    && forall k :: 0 <= k < j ==> compare(face, members[k]) == Far))
  {
    if members != [] && compare(face, members[0]) == Far {
      var rest := members[1..];
      AnyNearMeaning(face, rest, compare);
      var r := AnyNear(face, rest, compare);
      assert AnyNear(face, members, compare) == r;
      if r == Far {
        forall j | 0 <= j < |members|
          ensures compare(face, members[j]) == Far
        {
          if j > 0 {
            assert members[j] == rest[j - 1];
          }
        }
      } else {
        var j :| 0 <= j < |rest| && compare(face, rest[j]) == r
                 && forall k :: 0 <= k < j ==> compare(face, rest[k]) == Far;
        assert members[j + 1] == rest[j];
        forall k | 0 <= k < j + 1
          ensures compare(face, members[k]) == Far
        {
          if k > 0 {
            assert members[k] == rest[k - 1];
          }
        }
      }
    }
  }

  datatype Match = Matched(clusterId: string) | NoMatch | MatchFails

  /** The loop at lines 71-75: the first cluster, in dict order, with a
      member near the face; clusters after it are not examined. */
  function FirstMatch(face: FaceLocation, ids: seq<string>, clusters: map<string, seq<string>>,
                      compare: (FaceLocation, string) -> Probe): (r: Match)
    requires forall j :: 0 <= j < |ids| ==> ids[j] in clusters
    ensures r.Matched? ==> r.clusterId in clusters
  {
    if ids == [] then NoMatch
    else
      match AnyNear(face, clusters[ids[0]], compare)
      case Near => Matched(ids[0])
      case Fails => MatchFails
      case Far => FirstMatch(face, ids[1..], clusters, compare)
  }

  /** No cluster matches exactly when every cluster's `any` is false; a
      matched cluster or a failure comes from the first cluster whose `any`
      is not false, and every cluster before it was examined in vain. */
  lemma {:induction false} FirstMatchMeaning(face: FaceLocation, ids: seq<string>, clusters: map<string, seq<string>>,
                                             compare: (FaceLocation, string) -> Probe)
    requires forall j :: 0 <= j < |ids| ==> ids[j] in clusters
    ensures var r := FirstMatch(face, ids, clusters, compare);
      && (r == NoMatch <==> forall j :: 0 <= j < |ids| ==> AnyNear(face, clusters[ids[j]], compare) == Far)
      && (r != NoMatch ==> exists j :: (
            && 0 <= j < |ids|
            && (forall k :: 0 <= k < j ==> AnyNear(face, clusters[ids[k]], compare) == Far)
            && (r.Matched? ==> ids[j] == r.clusterId && AnyNear(face, clusters[ids[j]], compare) == Near)
            && (r.MatchFails? ==> AnyNear(face, clusters[ids[j]], compare) == Fails)))
  {
    if ids != [] && AnyNear(face, clusters[ids[0]], compare) == Far {
      FirstMatchMeaning(face, ids[1..], clusters, compare);
      assert forall j :: 1 <= j < |ids| ==> ids[j] == ids[1..][j - 1];
      var r := FirstMatch(face, ids[1..], clusters, compare);
      if r != NoMatch {
        var j :| && 0 <= j < |ids[1..]|
                 && (forall k :: 0 <= k < j ==> AnyNear(face, clusters[ids[1..][k]], compare) == Far)
                 && (r.Matched? ==> ids[1..][j] == r.clusterId && AnyNear(face, clusters[ids[1..][j]], compare) == Near)
                 && (r.MatchFails? ==> AnyNear(face, clusters[ids[1..][j]], compare) == Fails);
        assert ids[j + 1] == ids[1..][j];
      }
    }
  }

  /** `f"{name}_{size}{Path(photo_path).suffix}"`, the copy's file name. */
  function OutputName(name: string, size: nat, photoPath: string): (r: string)
    ensures |r| == |name| + 1 + |NatStr(size)| + |Suffix(photoPath)|
    ensures r[..|name|] == name && r[|name|] == '_'
    ensures r[|name| + 1..|name| + 1 + |NatStr(size)|] == NatStr(size)
    ensures EndsWith(r, Suffix(photoPath))
  {
    name + "_" + NatStr(size) + Suffix(photoPath)
  }

  /** A digit string followed by a dot-led (or empty) suffix splits apart
      in only one way. */
  lemma DigitsBeforeSuffix(x: string, s: string, y: string, t: string)
    requires forall i :: 0 <= i < |x| ==> '0' <= x[i] <= '9'
    requires forall i :: 0 <= i < |y| ==> '0' <= y[i] <= '9'
    requires s == [] || s[0] == '.'
    requires t == [] || t[0] == '.'
    ensures x + s == y + t ==> x == y
  {
    if x + s == y + t {
      var u := x + s;
      assert forall i :: 0 <= i < |x| ==> u[i] == x[i];
      assert forall i :: 0 <= i < |y| ==> u[i] == y[i];
      assert |s| > 0 ==> u[|x|] == '.';
      assert |t| > 0 ==> u[|y|] == '.';
      assert x == u[..|x|] && y == u[..|y|];
    }
  }

  /** Photos added to a cluster one after another are copied under
      different names, whatever their suffixes. */
  lemma OutputNamesDiffer(name: string, a: nat, b: nat, p: string, q: string)
    ensures OutputName(name, a, p) == OutputName(name, b, q) ==> a == b
  {
    var x, y := NatStr(a), NatStr(b);
    var s, t := Suffix(p), Suffix(q);
    OutputNameSplits(name, x, s);
    OutputNameSplits(name, y, t);
    DigitsBeforeSuffix(x, s, y, t);
    if x == y {
      NatStrInjective(a, b);
    }
  }

  /** The part of an output name after `<name>_`. */
  lemma OutputNameSplits(name: string, digits: string, suffix: string)
    ensures (name + "_" + digits + suffix)[|name| + 1..] == digits + suffix
    ensures |name + "_" + digits + suffix| == |name| + 1 + |digits + suffix|
  {
    assert name + "_" + digits + suffix == (name + "_") + (digits + suffix);
  }

  /** What `process_new_photo` did: the cluster the photo joined and the
      name of its copy, no face found, or an exception that was caught. */
  datatype PhotoOutcome = Added(clusterId: string, outputName: string) | NoFaces | Failed

  datatype Step = Step(state: ServiceState, outcome: PhotoOutcome)

  /** Line 84 for a matched cluster: the photo goes at the end of its list. */
  function JoinCluster(s: ServiceState, id: string, photoPath: string): (r: ServiceState)
    requires Consistent(s) && id in s.faceClusters.entries
    ensures Consistent(r)
    ensures r.faceClusters.keys == s.faceClusters.keys
    ensures r.faceClusters.entries == s.faceClusters.entries[id := s.faceClusters.entries[id] + [photoPath]]
    ensures r.personNames == s.personNames && r.nextId == s.nextId
  {
    s.(faceClusters := Put(s.faceClusters, id, s.faceClusters.entries[id] + [photoPath]))
  }

  /** Lines 79-84 with the id taken from the counter: a fresh cluster
      holding just the photo, named after its id, added at the end. */
  function StartCluster(s: ServiceState, photoPath: string): (r: ServiceState)
    requires Consistent(s)
    ensures Consistent(r)
    ensures var id := NewClusterId(s.nextId);
      && id !in s.faceClusters.entries
      && r.faceClusters.keys == s.faceClusters.keys + [id]
      && r.faceClusters.entries == s.faceClusters.entries[id := [photoPath]]
      && r.personNames.entries == s.personNames.entries[id := id]
      && r.nextId == s.nextId + 1
  {
    var id := NewClusterId(s.nextId);
    FreshClusterId(s);
    var r := ServiceState(Put(s.faceClusters, id, [photoPath]), Put(s.personNames, id, id), s.nextId + 1);
    forall k | k in r.faceClusters.entries
      ensures exists n: nat :: n < r.nextId && k == NewClusterId(n)
    {
      if k == id {
        assert s.nextId < r.nextId;
      } else {
        var n: nat :| n < s.nextId && k == NewClusterId(n);
        assert n < r.nextId;
      }
    }
    r
  }

  /** `process_new_photo` with the cluster id taken from the counter (see
      `NewIdAsWritten` for the id line 79 computes). `detect` yields `None`
      when the detector raises. */
  function NewPhoto(s: ServiceState, photoPath: string, detect: string -> Option<seq<FaceLocation>>,
                    compare: (FaceLocation, string) -> Probe): (r: Step)
    requires Consistent(s)
    ensures Consistent(r.state)
    ensures !r.outcome.Added? ==> r.state == s
    ensures r.outcome == NoFaces <==> detect(photoPath) == Some([])
  {
    match detect(photoPath)
    case None => Step(s, Failed)
    case Some(faces) =>
      if faces == [] then Step(s, NoFaces)
      else
        match FirstMatch(faces[0], s.faceClusters.keys, s.faceClusters.entries, compare)
        case MatchFails => Step(s, Failed)
        case Matched(id) =>
          var r := JoinCluster(s, id, photoPath);
          Step(r, Added(id, OutputName(r.personNames.entries[id], |r.faceClusters.entries[id]|, photoPath)))
        case NoMatch =>
          var r := StartCluster(s, photoPath);
          var id := NewClusterId(s.nextId);
          Step(r, Added(id, OutputName(r.personNames.entries[id], |r.faceClusters.entries[id]|, photoPath)))
  }

  /** A photo joins the first cluster that has a member near its first
      face; the ids, their order, the names and the counter stay as they
      were. */
  lemma JoinsFirstMatch(s: ServiceState, photoPath: string, detect: string -> Option<seq<FaceLocation>>,
                        compare: (FaceLocation, string) -> Probe, id: string)
    requires Consistent(s)
    requires detect(photoPath).Some? && detect(photoPath).value != []
    requires FirstMatch(detect(photoPath).value[0], s.faceClusters.keys, s.faceClusters.entries, compare) == Matched(id)
    ensures var r := NewPhoto(s, photoPath, detect, compare);
      && r.outcome.Added? && r.outcome.clusterId == id
      && id in s.faceClusters.entries
      && r.state.faceClusters.keys == s.faceClusters.keys
      && r.state.faceClusters.entries == s.faceClusters.entries[id := s.faceClusters.entries[id] + [photoPath]]
      && r.state.personNames == s.personNames && r.state.nextId == s.nextId
      && r.outcome.outputName == OutputName(s.personNames.entries[id], |s.faceClusters.entries[id]| + 1, photoPath)
  {
  }

  /** A photo that matches no cluster starts a new cluster, appended at the
      end, holding just this photo and named after its id; the id is not
      in use, so no existing cluster is touched. */
  lemma StartsNewCluster(s: ServiceState, photoPath: string, detect: string -> Option<seq<FaceLocation>>,
                         compare: (FaceLocation, string) -> Probe)
    requires Consistent(s)
    requires detect(photoPath).Some? && detect(photoPath).value != []
    requires FirstMatch(detect(photoPath).value[0], s.faceClusters.keys, s.faceClusters.entries, compare) == NoMatch
    ensures var r := NewPhoto(s, photoPath, detect, compare);
      var id := NewClusterId(s.nextId);
      && r.outcome.Added? && r.outcome.clusterId == id
      && id !in s.faceClusters.entries
      && r.state.faceClusters.keys == s.faceClusters.keys + [id]
      && r.state.faceClusters.entries == s.faceClusters.entries[id := [photoPath]]
      && r.state.personNames.entries == s.personNames.entries[id := id]
      && r.state.nextId == s.nextId + 1
      && r.outcome.outputName == OutputName(id, 1, photoPath)
  {
    FreshClusterId(s);
  }

  /** A detector failure, a photo without faces, or a failing comparison
      leaves both dicts as they were. */
  lemma FailureChangesNothing(s: ServiceState, photoPath: string, detect: string -> Option<seq<FaceLocation>>,
                              compare: (FaceLocation, string) -> Probe)
    requires Consistent(s)
    requires detect(photoPath).None? || detect(photoPath) == Some([])
             || FirstMatch(detect(photoPath).value[0], s.faceClusters.keys, s.faceClusters.entries, compare) == MatchFails
    ensures NewPhoto(s, photoPath, detect, compare).state == s
    ensures !NewPhoto(s, photoPath, detect, compare).outcome.Added?
  {
  }

  // ---------------------------------------------------------------------
  // handle_deleted_photo (lines 93-101)
  // ---------------------------------------------------------------------

  /** The first cluster, in dict order, that lists the photo. */
  function Holder(ids: seq<string>, clusters: map<string, seq<string>>, photoPath: string): (r: Option<string>)
    requires forall j :: 0 <= j < |ids| ==> ids[j] in clusters
    ensures r.Some? ==> r.value in clusters && photoPath in clusters[r.value]
  {
    if ids == [] then None
    else if photoPath in clusters[ids[0]] then Some(ids[0])
    else Holder(ids[1..], clusters, photoPath)
  }

  /** No cluster holds the photo exactly when no listed cluster contains
      it; otherwise the holder is the first cluster containing it. */
  lemma {:induction false} HolderMeaning(ids: seq<string>, clusters: map<string, seq<string>>, photoPath: string)
    requires forall j :: 0 <= j < |ids| ==> ids[j] in clusters
    ensures var r := Holder(ids, clusters, photoPath);
      && (r.None? <==> forall j :: 0 <= j < |ids| ==> photoPath !in clusters[ids[j]])
      && (r.Some? ==> exists j :: (&& 0 <= j < |ids| && ids[j] == r.value
                                   && forall k :: 0 <= k < j ==> photoPath !in clusters[ids[k]]))
  {
    if ids != [] && photoPath !in clusters[ids[0]] {
      HolderMeaning(ids[1..], clusters, photoPath);
      assert forall j :: 1 <= j < |ids| ==> ids[j] == ids[1..][j - 1];
      var r := Holder(ids[1..], clusters, photoPath);
      if r.Some? {
        var j :| && 0 <= j < |ids[1..]| && ids[1..][j] == r.value
                 && forall k :: 0 <= k < j ==> photoPath !in clusters[ids[1..][k]];
        assert ids[j + 1] == ids[1..][j];
      }
    }
  }

  /** `handle_deleted_photo`: one occurrence of the photo leaves the first
      cluster listing it; a cluster left empty loses its id and its name. */
  function Deleted(s: ServiceState, photoPath: string): (r: ServiceState)
    requires Consistent(s)
    ensures Consistent(r)
    ensures r.nextId == s.nextId
  {
    match Holder(s.faceClusters.keys, s.faceClusters.entries, photoPath)
    case None => s
    case Some(id) => RemovedFrom(s, id, photoPath)
  }

  /** Lines 97-100 for the cluster `id` that lists the photo. */
  function RemovedFrom(s: ServiceState, id: string, photoPath: string): (r: ServiceState)
    requires Consistent(s) && id in s.faceClusters.entries && photoPath in s.faceClusters.entries[id]
    ensures Consistent(r)
    ensures r.nextId == s.nextId
  {
    var photos := RemoveFirst(s.faceClusters.entries[id], photoPath);
    if photos == [] then
      ServiceState(Delete(s.faceClusters, id), Delete(s.personNames, id), s.nextId)
    else
      s.(faceClusters := Put(s.faceClusters, id, photos))
  }

  /** Deleting a photo no cluster lists changes nothing. */
  lemma DeletingUnknownPhoto(s: ServiceState, photoPath: string)
    requires Consistent(s)
    requires forall id :: id in s.faceClusters.entries ==> photoPath !in s.faceClusters.entries[id]
    ensures Deleted(s, photoPath) == s
  {
  }

  /** Deleting a photo touches only the first cluster listing it: that
      cluster loses the first copy of the photo and is pruned, with its
      name, when nothing is left, the other ids keeping their order; every
      other cluster and name is kept. */
  lemma DeletingKnownPhoto(s: ServiceState, photoPath: string, id: string)
    requires Consistent(s)
    requires Holder(s.faceClusters.keys, s.faceClusters.entries, photoPath) == Some(id)
    ensures var r := Deleted(s, photoPath);
      var old_photos := s.faceClusters.entries[id];
      && (id in r.faceClusters.entries <==> |old_photos| > 1)
      && (id in r.faceClusters.entries ==>
            r.faceClusters.entries[id] == RemoveFirst(old_photos, photoPath)
            && multiset(r.faceClusters.entries[id]) == multiset(old_photos) - multiset{photoPath}
            && r.personNames.entries[id] == s.personNames.entries[id])
      && r.faceClusters.keys == (if |old_photos| > 1 then s.faceClusters.keys else Without(s.faceClusters.keys, id))
      && (forall k :: k != id ==> (k in r.faceClusters.entries <==> k in s.faceClusters.entries))
      && (forall k :: k != id && k in r.faceClusters.entries ==>
            r.faceClusters.entries[k] == s.faceClusters.entries[k]
            && r.personNames.entries[k] == s.personNames.entries[k])
  {
  }

  // ---------------------------------------------------------------------
  // The service object
  // ---------------------------------------------------------------------

  class PhotoService {
    const watchFolder: string
    const outputFolder: string
    var faceClusters: Dict<string, seq<string>>
    var personNames: Dict<string, string>
    var nextId: nat

    function State(): ServiceState
      reads this
    {
      ServiceState(faceClusters, personNames, nextId)
    }

    ghost predicate Valid()
      reads this
    {
      Consistent(State())
    }

    constructor(watchFolder: string, outputFolder: string)
      ensures Valid()
      ensures this.watchFolder == watchFolder && this.outputFolder == outputFolder
      ensures faceClusters == Empty() && personNames == Empty() && nextId == 0
    {
      this.watchFolder := watchFolder;
      this.outputFolder := outputFolder;
      faceClusters := Empty();
      personNames := Empty();
      nextId := 0;
    }

    /** `process_new_photo`: the photo joins the first matching cluster or
        starts a new one; the returned outcome names the copy it makes. */
    method ProcessNewPhoto(photoPath: string, detect: string -> Option<seq<FaceLocation>>,
                           compare: (FaceLocation, string) -> Probe) returns (outcome: PhotoOutcome)
      requires Valid()
      modifies this
      ensures Step(State(), outcome) == NewPhoto(old(State()), photoPath, detect, compare)
      ensures Valid()
    {
      var detected := detect(photoPath);
      if detected.None? {
        // the detector raised; the handler at line 90 swallows it
        return Failed;
      }
      var faces := detected.value;
      if faces == [] {
        return NoFaces;
      }
      var matched := FindCluster(faces[0], compare);
      if matched == MatchFails {
        return Failed;
      }
      outcome := AddToCluster(matched, photoPath);
    }

    /** The loop at lines 71-75, which changes nothing. */
    method FindCluster(face: FaceLocation, compare: (FaceLocation, string) -> Probe) returns (matched: Match)
      requires Valid()
      ensures matched == FirstMatch(face, faceClusters.keys, faceClusters.entries, compare)
    {
      var ids, clusters := faceClusters.keys, faceClusters.entries;
      var i := 0;
      while i < |ids|
        invariant 0 <= i <= |ids|
        invariant FirstMatch(face, ids, clusters, compare) == FirstMatch(face, ids[i..], clusters, compare)
      {
        var clusterId := ids[i];
        assert ids[i..][0] == clusterId;
        var probe := AnyNear(face, clusters[clusterId], compare);
        if probe == Fails {
          return MatchFails;
        }
        if probe == Near {
          return Matched(clusterId);
        }
        assert ids[i..][1..] == ids[i + 1..];
        i := i + 1;
      }
      return NoMatch;
    }

    /** Lines 77-87 once the loop has decided. */
    method AddToCluster(matched: Match, photoPath: string) returns (outcome: PhotoOutcome)
      requires Valid() && matched != MatchFails
      requires matched.Matched? ==> matched.clusterId in faceClusters.entries
      modifies this
      ensures matched == NoMatch ==> State() == StartCluster(old(State()), photoPath)
      ensures matched.Matched? ==> State() == JoinCluster(old(State()), matched.clusterId, photoPath)
      ensures outcome.Added?
      ensures outcome.clusterId == if matched.Matched? then matched.clusterId else NewClusterId(old(nextId))
      ensures outcome.outputName == OutputName(personNames.entries[outcome.clusterId], |faceClusters.entries[outcome.clusterId]|, photoPath)
    {
      ghost var before := State();
      var clusterId: string;
      if matched == NoMatch {
        clusterId := OpenCluster();
        AppendPhoto(clusterId, photoPath);
        PutTwice(before.faceClusters, clusterId, [], [photoPath]);
        assert [] + [photoPath] == [photoPath];
        assert State() == StartCluster(before, photoPath);
      } else {
        clusterId := matched.clusterId;
        AppendPhoto(clusterId, photoPath);
        assert State() == JoinCluster(before, clusterId, photoPath);
      }
      outcome := Added(clusterId, OutputName(personNames.entries[clusterId], |faceClusters.entries[clusterId]|, photoPath));
    }

    /** Lines 79-82: an empty cluster under a fresh id, named after it. */
    method OpenCluster() returns (clusterId: string)
      requires Valid()
      modifies this
      ensures clusterId == NewClusterId(old(nextId)) && clusterId !in old(faceClusters.entries)
      ensures faceClusters == Put(old(faceClusters), clusterId, [])
      ensures personNames == Put(old(personNames), clusterId, clusterId)
      ensures nextId == old(nextId) + 1
    {
      clusterId := NewClusterId(nextId);
      FreshClusterId(State());
      faceClusters := Put(faceClusters, clusterId, []);
      personNames := Put(personNames, clusterId, clusterId);
      nextId := nextId + 1;
    }

    /** Line 84: the photo goes to the end of the cluster's list. */
    method AppendPhoto(clusterId: string, photoPath: string)
      requires Dicts.Valid(faceClusters) && clusterId in faceClusters.entries
      modifies this
      ensures faceClusters == Put(old(faceClusters), clusterId, old(faceClusters.entries[clusterId]) + [photoPath])
      ensures personNames == old(personNames) && nextId == old(nextId)
    {
      faceClusters := Put(faceClusters, clusterId, faceClusters.entries[clusterId] + [photoPath]);
    }

    /** `handle_deleted_photo` */
    method HandleDeletedPhoto(photoPath: string)
      requires Valid()
      modifies this
      ensures State() == Deleted(old(State()), photoPath)
      ensures Valid()
    {
      var holder := FindHolder(photoPath);
      if holder.Some? {
        RemovePhoto(holder.value, photoPath);
      }
    }

    /** The loop of lines 95-96, up to the `break`, which changes nothing. */
    method FindHolder(photoPath: string) returns (holder: Option<string>)
      requires Valid()
      ensures holder == Holder(faceClusters.keys, faceClusters.entries, photoPath)
    {
      var ids, clusters := faceClusters.keys, faceClusters.entries;
      var i := 0;
      while i < |ids|
        invariant 0 <= i <= |ids|
        invariant Holder(ids, clusters, photoPath) == Holder(ids[i..], clusters, photoPath)
      {
        var clusterId := ids[i];
        assert ids[i..][0] == clusterId;
        if photoPath in clusters[clusterId] {
          return Some(clusterId);
        }
        assert ids[i..][1..] == ids[i + 1..];
        i := i + 1;
      }
      return None;
    }

    /** Lines 97-100: one occurrence leaves the cluster, which is deleted
        with its name once empty. */
    method RemovePhoto(clusterId: string, photoPath: string)
      requires Valid() && clusterId in faceClusters.entries && photoPath in faceClusters.entries[clusterId]
      modifies this
      ensures State() == RemovedFrom(old(State()), clusterId, photoPath)
    {
      var photos := RemoveFirst(faceClusters.entries[clusterId], photoPath);
      if photos == [] {
        faceClusters := Delete(faceClusters, clusterId);
        personNames := Delete(personNames, clusterId);
      } else {
        faceClusters := Put(faceClusters, clusterId, photos);
      }
    }

    /** `rename_person`, without the renaming of copied files: a known id
        gets the new name, nothing else changes. */
    method RenamePerson(clusterId: string, newName: string)
      requires Valid()
      modifies this
      ensures Valid()
      ensures faceClusters == old(faceClusters) && nextId == old(nextId)
      ensures personNames == if clusterId in old(personNames.entries) then Put(old(personNames), clusterId, newName)
                             else old(personNames)
    {
      if clusterId in personNames.entries {
        personNames := Put(personNames, clusterId, newName);
      }
    }
  }

  /** `PhotoEventHandler`: forwards created and deleted image files. */
  class PhotoEventHandler {
    const service: PhotoService

    constructor(service: PhotoService)
      ensures this.service == service
    {
      this.service := service;
    }

    method OnCreated(event: FileSystemEvent, detect: string -> Option<seq<FaceLocation>>,
                     compare: (FaceLocation, string) -> Probe) returns (forwarded: bool)
      requires service.Valid()
      modifies service
      ensures service.Valid()
      ensures forwarded <==> !event.isDirectory && HandlerIsImage(event.srcPath)
      ensures service.State() == if forwarded then NewPhoto(old(service.State()), event.srcPath, detect, compare).state
                                 else old(service.State())
    {
      forwarded := !event.isDirectory && HandlerIsImage(event.srcPath);
      if forwarded {
        var _ := service.ProcessNewPhoto(event.srcPath, detect, compare);
      }
    }

    method OnDeleted(event: FileSystemEvent) returns (forwarded: bool)
      requires service.Valid()
      modifies service
      ensures service.Valid()
      ensures forwarded <==> !event.isDirectory && HandlerIsImage(event.srcPath)
      ensures service.State() == if forwarded then Deleted(old(service.State()), event.srcPath)
                                 else old(service.State())
    {
      forwarded := !event.isDirectory && HandlerIsImage(event.srcPath);
      if forwarded {
        service.HandleDeletedPhoto(event.srcPath);
      }
    }
  }

  // ---------------------------------------------------------------------
  // Line 79 as written
  // ---------------------------------------------------------------------

  /** The id line 79 computes: the current number of clusters. */
  function NewIdAsWritten(s: ServiceState): (r: string)
    requires Valid(s.faceClusters)
    ensures r == NewClusterId(|s.faceClusters.entries|)
  {
    CardOfKeys(s.faceClusters);
    NewClusterId(|s.faceClusters.keys|)
  }

  /** The ids `person_0` to `person_<k - 1>`. */
  ghost function IdsBelow(k: nat): set<string> {
    set n: nat | n < k :: NewClusterId(n)
  }

  lemma {:induction false} IdsBelowSize(k: nat)
    ensures |IdsBelow(k)| == k
  {
    if k > 0 {
      IdsBelowSize(k - 1);
      forall n: nat | n < k - 1
        ensures NewClusterId(n) != NewClusterId(k - 1)
      {
        NewClusterIdsDistinct(n, k - 1);
      }
      assert IdsBelow(k) == IdsBelow(k - 1) + {NewClusterId(k - 1)};
    }
  }

  /** The counter never lags behind `len(face_clusters)`, and the two give
      the same next id exactly when no cluster has been pruned, that is
      when every id the counter handed out is still live. */
  lemma CounterIdMatchesAsWritten(s: ServiceState)
    requires Consistent(s)
    ensures |s.faceClusters.keys| <= s.nextId
    ensures NewIdAsWritten(s) == NewClusterId(s.nextId)
        <==> forall n: nat :: n < s.nextId ==> NewClusterId(n) in s.faceClusters.entries
  {
    var live, all := s.faceClusters.entries.Keys, IdsBelow(s.nextId);
    CardOfKeys(s.faceClusters);
    IdsBelowSize(s.nextId);
    assert live <= all;
    assert all == live + (all - live);
    if NewIdAsWritten(s) == NewClusterId(s.nextId) {
      NewClusterIdsDistinct(|s.faceClusters.keys|, s.nextId);
      assert all - live == {};
      forall n: nat | n < s.nextId
        ensures NewClusterId(n) in s.faceClusters.entries
      {
        assert NewClusterId(n) in all;
      }
    }
    if forall n: nat :: n < s.nextId ==> NewClusterId(n) in s.faceClusters.entries {
      assert all <= live;
      assert live == all;
    }
  }

  /** Lines 79-84 as written, for a photo that matched no cluster: the id
      is set to an empty list, named after itself, and given the photo. */
  function AddUnmatchedAsWritten(s: ServiceState, photoPath: string): (r: ServiceState)
    requires Valid(s.faceClusters) && Valid(s.personNames)
    ensures Valid(r.faceClusters) && Valid(r.personNames)
    ensures r.faceClusters.entries == s.faceClusters.entries[NewIdAsWritten(s) := [photoPath]]
    ensures r.personNames.entries == s.personNames.entries[NewIdAsWritten(s) := NewIdAsWritten(s)]
    ensures NewIdAsWritten(s) in s.faceClusters.entries ==> r.faceClusters.keys == s.faceClusters.keys
  {
    var id := NewIdAsWritten(s);
    assert [] + [photoPath] == [photoPath];
    var clusters := Put(s.faceClusters, id, []);
    var names := Put(s.personNames, id, id);
    s.(faceClusters := Put(clusters, id, clusters.entries[id] + [photoPath]), personNames := names)
  }

  /** Photos "a.jpg" and "b.jpg" start clusters person_0 and person_1;
      deleting "a.jpg" prunes person_0. An unmatched "c.jpg" then gets id
      person_1 again, which replaces the live cluster: "b.jpg" is in no
      cluster any more. The counter-based `NewPhoto` instead keeps every
      photo (`NewPhotoKeepsPhotos`). */
  lemma AsWrittenReusesLiveId()
    ensures var s := ServiceState(Dict(["person_1"], map["person_1" := ["b.jpg"]]),
                                  Dict(["person_1"], map["person_1" := "person_1"]), 2);
      && Consistent(s)
      && NewIdAsWritten(s) in s.faceClusters.entries
      && AddUnmatchedAsWritten(s, "c.jpg").faceClusters.entries == map["person_1" := ["c.jpg"]]
  {
    var s := ServiceState(Dict(["person_1"], map["person_1" := ["b.jpg"]]),
                          Dict(["person_1"], map["person_1" := "person_1"]), 2);
    assert Digit(1) == '1';
    assert NatStr(1) == ['1'];
    assert "person_" + ['1'] == "person_1";
    assert NewIdAsWritten(s) == "person_1" == NewClusterId(1);
    assert s.faceClusters.entries["person_1" := ["c.jpg"]] == map["person_1" := ["c.jpg"]];
  }

  /** Giving `id` the list `v` keeps every list as a prefix, provided `id`
      is new or its old list is a prefix of `v`. */
  lemma KeptUnder(m: map<string, seq<string>>, id: string, v: seq<string>)
    requires id in m ==> m[id] <= v
    ensures forall k :: k in m ==> k in m[id := v] && m[k] <= m[id := v][k]
  {
  }

  /** With the counter, adding a photo never drops a photo already in a
      cluster: every cluster keeps its list as a prefix. */
  lemma NewPhotoKeepsPhotos(s: ServiceState, photoPath: string, detect: string -> Option<seq<FaceLocation>>,
                            compare: (FaceLocation, string) -> Probe)
    requires Consistent(s)
    ensures var r := NewPhoto(s, photoPath, detect, compare).state;
      forall id :: id in s.faceClusters.entries ==>
        id in r.faceClusters.entries && s.faceClusters.entries[id] <= r.faceClusters.entries[id]
  {
    var step := NewPhoto(s, photoPath, detect, compare);
    if step.outcome.Added? {
      var face := detect(photoPath).value[0];
      match FirstMatch(face, s.faceClusters.keys, s.faceClusters.entries, compare)
      case Matched(id) =>
        assert step.state == JoinCluster(s, id, photoPath);
        KeptUnder(s.faceClusters.entries, id, s.faceClusters.entries[id] + [photoPath]);
      case NoMatch =>
        assert step.state == StartCluster(s, photoPath);
        KeptUnder(s.faceClusters.entries, NewClusterId(s.nextId), [photoPath]);
    }
  }
}

=== FILE: recognizer.dfy ===
/** The batch registry of `FaceRecognizer`: a folder scan collects every
    face that carries an encoding, DBSCAN with `min_samples=1` labels them,
    and the labels are grouped into `Person` records keyed by label. */
module Recognizer {
  import opened Util
  import opened Strings
  import opened Dicts

  /** A face embedding; the model never looks inside one. */
  type Encoding = seq<real>

  /** What the detector reports for one face: its box and, when extraction
      succeeded, its encoding. */
  datatype FaceLocation = FaceLocation(top: int, right: int, bottom: int, left: int, encoding: Option<Encoding>)

  /** One entry of `face_data`: the image path and the detected face. */
  type FaceRecord = (string, FaceLocation)

  datatype Person = Person(
    id: int,
    name: string,
    faceEncodings: seq<Encoding>,
    photoPaths: set<string>,
    faceIndices: seq<nat>)

  // ---------------------------------------------------------------------
  // Which files are scanned, and which faces are kept
  // ---------------------------------------------------------------------

  const ScanExtensions: seq<string> := [".png", ".jpg", ".jpeg"]

  /** The scan's file filter: the lower-cased name ends with an extension. */
  predicate IsScanned(fileName: string) {
    EndsWithAny(Lower(fileName), ScanExtensions)
  }

  /** `image_files`: the listed names that pass the filter, joined to the
      folder, in listing order. */
  function ImageFiles(folder: string, names: seq<string>): (r: seq<string>)
    ensures |r| <= |names|
    ensures forall n :: n in names && IsScanned(n) ==> JoinPath(folder, n) in r
  {
    if names == [] then []
    else
      var init, last := names[..|names| - 1], names[|names| - 1];
      assert forall n :: n in names ==> n in init || n == last;
      ImageFiles(folder, init) + (if IsScanned(last) then [JoinPath(folder, last)] else [])
  }

  /** Every scanned file is a listed name that passes the filter. */
  lemma {:induction false} ImageFilesFromNames(folder: string, names: seq<string>)
    ensures forall k :: 0 <= k < |ImageFiles(folder, names)| ==>
      exists n :: n in names && IsScanned(n) && ImageFiles(folder, names)[k] == JoinPath(folder, n)
  {
    if names != [] {
      var init, last := names[..|names| - 1], names[|names| - 1];
      ImageFilesFromNames(folder, init);
      var p := ImageFiles(folder, init);
      var files := ImageFiles(folder, names);
      assert files == p + (if IsScanned(last) then [JoinPath(folder, last)] else []);
      forall k | 0 <= k < |files|
        ensures exists n :: n in names && IsScanned(n) && files[k] == JoinPath(folder, n)
      {
        if k < |p| {
          var n :| n in init && IsScanned(n) && p[k] == JoinPath(folder, n);
          assert n in names && files[k] == p[k];
        } else {
          assert last in names && files[k] == JoinPath(folder, last);
        }
      }
    } else {
      assert ImageFiles(folder, names) == [];
    }
  }

  /** The faces of one image that carry an encoding, paired with its path. */
  function KeptFaces(path: string, faces: seq<FaceLocation>): (r: seq<FaceRecord>)
    ensures forall k :: 0 <= k < |r| ==> r[k].0 == path && r[k].1 in faces && r[k].1.encoding.Some?
    ensures forall f :: f in faces && f.encoding.Some? ==> (path, f) in r
  {
    if faces == [] then []
    else
      var f := faces[|faces| - 1];
      KeptFaces(path, faces[..|faces| - 1]) + (if f.encoding.Some? then [(path, f)] else [])
  }

  /** `face_data` after scanning `images` in order. */
  function ScannedFaces(images: seq<string>, detect: string -> seq<FaceLocation>): (r: seq<FaceRecord>)
    ensures forall k :: 0 <= k < |r| ==> r[k].0 in images && r[k].1 in detect(r[k].0) && r[k].1.encoding.Some?
    ensures forall p, f :: p in images && f in detect(p) && f.encoding.Some? ==> (p, f) in r
  {
    if images == [] then []
    else
      var init := images[..|images| - 1];
      var last := images[|images| - 1];
      var r := ScannedFaces(init, detect) + KeptFaces(last, detect(last));
      assert forall p :: p in images ==> p in init || p == last;
      r
  }

  predicate AllEncoded(records: seq<FaceRecord>) {
    forall k :: 0 <= k < |records| ==> records[k].1.encoding.Some?
  }

  /** The list `encodings` that the scan keeps beside `face_data`. */
  function EncodingsOf(records: seq<FaceRecord>): (r: seq<Encoding>)
    requires AllEncoded(records)
    ensures |r| == |records|
    ensures forall k :: 0 <= k < |r| ==> r[k] == records[k].1.encoding.value
  {
    seq(|records|, k requires 0 <= k < |records| => records[k].1.encoding.value)
  }

  /** Appending an encoded face appends its encoding. */
  lemma EncodingsSnoc(records: seq<FaceRecord>, r: FaceRecord)
    requires AllEncoded(records) && r.1.encoding.Some?
    ensures AllEncoded(records + [r])
    ensures EncodingsOf(records + [r]) == EncodingsOf(records) + [r.1.encoding.value]
  {
  }

  /** The progress percentage reported after `done + 1` of `total` images. */
  function ProgressValue(done: nat, total: nat): (r: int)
    requires done < total
    ensures 0 <= r <= 100
    ensures done + 1 == total ==> r == 100
  {
    DivBelow((done + 1) * 100, total, 100);
    (done + 1) * 100 / total
  }

  lemma DivBelow(x: nat, d: nat, q: nat)
    requires 0 < d && x <= d * q
    ensures x / d <= q
  {
  }

  lemma DivMonotone(x: nat, y: nat, d: nat)
    requires 0 < d && x <= y
    ensures x / d <= y / d
  {
    var qx, qy := x / d, y / d;
    if qx > qy {
      MulMonotone(qy + 1, qx, d);
    }
  }

  lemma MulMonotone(a: nat, b: nat, d: nat)
    requires a <= b
    ensures d * a <= d * b
  {
  }

  /** The values reported while the scan goes through `total` images never
      decrease. */
  lemma ProgressMonotone(a: nat, b: nat, total: nat)
    requires a <= b < total
    ensures ProgressValue(a, total) <= ProgressValue(b, total)
  {
    DivMonotone((a + 1) * 100, (b + 1) * 100, total);
  }

  // ---------------------------------------------------------------------
  // DBSCAN with min_samples = 1
  // ---------------------------------------------------------------------

  /** `path` walks through faces, each step between two faces whose
      encodings are close (distance at most eps). */
  ghost predicate IsWalk(encs: seq<Encoding>, close: (Encoding, Encoding) -> bool, path: seq<nat>) {
    && 1 <= |path|
    && (forall k :: 0 <= k < |path| ==> path[k] < |encs|)
    && (forall k :: 0 <= k < |path| - 1 ==> close(encs[path[k]], encs[path[k + 1]]))
  }

  ghost predicate Connected(encs: seq<Encoding>, close: (Encoding, Encoding) -> bool, i: nat, j: nat) {
    exists path :: IsWalk(encs, close, path) && path[0] == i && path[|path| - 1] == j
  }

  /** What DBSCAN with `min_samples=1` returns: one label per face, never the
      noise label -1, and two faces share a label exactly when they lie in
      the same connected component of the "close" graph. */
  ghost predicate IsComponentLabelling(encs: seq<Encoding>, close: (Encoding, Encoding) -> bool, labels: seq<int>) {
    && |labels| == |encs|
    && (forall l :: l in labels ==> 0 <= l)
    && (forall i, j :: 0 <= i < |labels| && 0 <= j < |labels| ==>
          (labels[i] == labels[j] <==> Connected(encs, close, i, j)))
  }

  /** Two close faces always receive the same label: no face is noise and
      the eps-edge between them is a walk. */
  lemma CloseFacesShareLabel(encs: seq<Encoding>, close: (Encoding, Encoding) -> bool, labels: seq<int>, i: nat, j: nat)
    requires IsComponentLabelling(encs, close, labels)
    requires i < |encs| && j < |encs| && close(encs[i], encs[j])
    ensures labels[i] == labels[j]
  {
    assert IsWalk(encs, close, [i, j]);
  }

  // ---------------------------------------------------------------------
  // Grouping labels into clusters (lines 50-52)
  // ---------------------------------------------------------------------

  predicate Increasing(s: seq<nat>) {
    forall a, b :: 0 <= a < b < |s| ==> s[a] < s[b]
  }

  /** The positions carrying label `k`, in increasing order. */
  function Members(labels: seq<int>, k: int): (r: seq<nat>)
    ensures forall i :: i in r <==> 0 <= i < |labels| && labels[i] == k
    ensures Increasing(r)
  {
    if labels == [] then []
    else
      var n := |labels| - 1;
      var p := Members(labels[..n], k);
      assert forall i :: 0 <= i < n ==> labels[..n][i] == labels[i];
      forall j | 0 <= j < |p|
        ensures p[j] < n
      {
        assert p[j] in p;
      }
      p + (if labels[n] == k then [n] else [])
  }

  lemma MembersOfAbsent(labels: seq<int>, k: int)
    requires k !in labels
    ensures Members(labels, k) == []
  {
  }

  /** Unfolding `Members` at its last position. */
  lemma MembersStep(labels: seq<int>, n: nat, k: int)
    requires n + 1 == |labels|
    ensures Members(labels, k) == Members(labels[..n], k) + (if labels[n] == k then [n] else [])
  {
  }

  /** The distinct labels in order of first appearance. */
  function FirstAppearance(labels: seq<int>): (r: seq<int>)
    ensures NoDup(r)
    ensures forall k :: k in r <==> k in labels
  {
    if labels == [] then []
    else
      var n := |labels| - 1;
      var p := FirstAppearance(labels[..n]);
      assert forall k :: k in labels <==> k in labels[..n] || k == labels[n];
      if labels[n] in p then p else p + [labels[n]]
  }

  /** The dict `clusters` that the grouping loop builds: label to its
      positions, keys in first-appearance order. */
  function Group(labels: seq<int>): (r: Dict<int, seq<nat>>)
    ensures Valid(r)
    ensures forall k :: k in r.entries <==> k in labels
  {
    Dict(FirstAppearance(labels), map k | k in labels :: Members(labels, k))
  }

  /** Grouping partitions the positions: every label present is a key, each
      position is in the list of its own label and in no other, and each
      list is non-empty and increasing. */
  lemma GroupIsPartition(labels: seq<int>)
    ensures Valid(Group(labels))
    ensures forall k :: k in Group(labels).entries <==> k in labels
    ensures forall i :: 0 <= i < |labels| ==> i in Group(labels).entries[labels[i]]
    ensures forall k, i :: k in Group(labels).entries && i in Group(labels).entries[k] ==> i < |labels| && labels[i] == k
    ensures forall k :: k in Group(labels).entries ==> |Group(labels).entries[k]| > 0 && Increasing(Group(labels).entries[k])
  {
    var g := Group(labels);
    forall k | k in g.entries
      ensures |g.entries[k]| > 0
    {
      var i := IndexOf(labels, k);
      assert i in g.entries[k];
    }
  }

  /** `clusters.setdefault(k, []).append(x)` */
  function SetDefaultAppend(d: Dict<int, seq<nat>>, k: int, x: nat): (r: Dict<int, seq<nat>>)
    requires Valid(d)
    ensures Valid(r)
  {
    Put(d, k, (if k in d.entries then d.entries[k] else []) + [x])
  }

  /** One step of the grouping loop extends the grouping of a prefix by the
      next label. */
  lemma GroupStep(labels: seq<int>, n: nat)
    requires n < |labels|
    ensures Valid(Group(labels[..n]))
    ensures Group(labels[..n + 1]) == SetDefaultAppend(Group(labels[..n]), labels[n], n)
  {
    var s, s' := labels[..n], labels[..n + 1];
    assert s'[..n] == s && s'[n] == labels[n];
    var g, g' := Group(s), Group(s');
    var r := SetDefaultAppend(g, labels[n], n);
    assert g'.keys == r.keys;
    GroupStepEntries(s', n);
    assert g'.entries == r.entries;
  }

  /** The map half of `GroupStep`, for a sequence ending at position `n`. */
  lemma GroupStepEntries(s': seq<int>, n: nat)
    requires n + 1 == |s'|
    ensures Group(s').entries == SetDefaultAppend(Group(s'[..n]), s'[n], n).entries
  {
    var s, x := s'[..n], s'[n];
    var g, g' := Group(s), Group(s');
    var r := SetDefaultAppend(g, x, n);
    assert forall k :: k in s' <==> k in s || k == x;
    forall k | k in s'
      ensures g'.entries[k] == r.entries[k]
    {
      MembersStep(s', n, k);
      if k == x && k !in s {
        MembersOfAbsent(s, k);
      }
    }
    assert g'.entries.Keys == r.entries.Keys;
  }

  // ---------------------------------------------------------------------
  // Building Person records (lines 53-63)
  // ---------------------------------------------------------------------

  predicate InRange(indices: seq<nat>, faceData: seq<FaceRecord>) {
    forall i :: i in indices ==> i < |faceData| && faceData[i].1.encoding.Some?
  }

  /** The set of image paths of the given faces. */
  function PathsOf(indices: seq<nat>, faceData: seq<FaceRecord>): set<string>
    requires InRange(indices, faceData)
  {
    set i | i in indices :: faceData[i].0
  }

  /** The encodings of the given faces, position by position. */
  function EncodingsAt(indices: seq<nat>, faceData: seq<FaceRecord>): (r: seq<Encoding>)
    requires InRange(indices, faceData)
    ensures |r| == |indices|
  {
    seq(|indices|, j requires 0 <= j < |indices| => assert indices[j] in indices; faceData[indices[j]].1.encoding.value)
  }

  /** The person built for cluster `label` with members `indices`. */
  function NewPerson(clusterId: int, indices: seq<nat>, faceData: seq<FaceRecord>): (r: Person)
    requires 0 <= clusterId && InRange(indices, faceData)
    ensures r.id == clusterId && r.name == "Person " + NatStr(clusterId) && r.faceIndices == indices
    ensures forall path :: path in r.photoPaths <==> exists i :: i in indices && faceData[i].0 == path
    ensures |r.faceEncodings| == |indices|
    ensures forall j :: 0 <= j < |indices| ==>
      indices[j] < |faceData| && r.faceEncodings[j] == faceData[indices[j]].1.encoding.value
  {
    Person(
      clusterId,
      "Person " + NatStr(clusterId),
      EncodingsAt(indices, faceData),
      PathsOf(indices, faceData),
      indices)
  }

  /** Cluster lists whose keys can be used as ids and whose members are
      positions of `faceData`. */
  ghost predicate WellFormedClusters(clusters: Dict<int, seq<nat>>, faceData: seq<FaceRecord>) {
    Valid(clusters) && forall k :: k in clusters.entries ==> 0 <= k && InRange(clusters.entries[k], faceData)
  }

  /** One person per cluster, keyed and ordered like the clusters. */
  function PeopleOf(clusters: Dict<int, seq<nat>>, faceData: seq<FaceRecord>): (r: Dict<int, Person>)
    requires WellFormedClusters(clusters, faceData)
    ensures Valid(r) && r.keys == clusters.keys
    ensures forall k :: k in r.entries ==> r.entries[k].id == k && r.entries[k].faceIndices == clusters.entries[k]
  {
    Dict(clusters.keys, map k | k in clusters.entries :: NewPerson(k, clusters.entries[k], faceData))
  }

  lemma GroupIsWellFormed(faceData: seq<FaceRecord>, labels: seq<int>)
    requires |labels| == |faceData| && AllEncoded(faceData)
    requires forall l :: l in labels ==> 0 <= l
    ensures WellFormedClusters(Group(labels), faceData)
  {
    GroupIsPartition(labels);
  }

  /** The registry that a scan with labels `labels` produces. */
  function Registry(faceData: seq<FaceRecord>, labels: seq<int>): (r: Dict<int, Person>)
    requires |labels| == |faceData| && AllEncoded(faceData)
    requires forall l :: l in labels ==> 0 <= l
    ensures Valid(r)
    ensures forall k :: k in r.entries <==> k in labels
    ensures forall i :: 0 <= i < |labels| ==> labels[i] in r.entries && i in r.entries[labels[i]].faceIndices
  {
    GroupIsWellFormed(faceData, labels);
    PeopleOf(Group(labels), faceData)
  }

  /** A registered person agrees with `face_data`: its id is its key, it has
      at least one face, its faces are distinct and in range, `photo_paths`
      is the set of their paths, and `face_encodings` runs beside
      `face_indices` position by position. */
  ghost predicate ConsistentPerson(p: Person, key: int, faceData: seq<FaceRecord>) {
    && p.id == key
    && |p.faceIndices| > 0
    && NoDup(p.faceIndices)
    && InRange(p.faceIndices, faceData)
    && p.photoPaths == PathsOf(p.faceIndices, faceData)
    && p.faceEncodings == EncodingsAt(p.faceIndices, faceData)
  }

  /** Some person holds face `i`. */
  ghost predicate Owned(people: Dict<int, Person>, i: nat) {
    exists k :: k in people.entries && i in people.entries[k].faceIndices
  }

  /** No face belongs to two persons. */
  ghost predicate Disjoint(people: Dict<int, Person>) {
    forall k1, k2, i ::
      (k1 in people.entries && k2 in people.entries
       && i in people.entries[k1].faceIndices && i in people.entries[k2].faceIndices) ==> k1 == k2
  }

  /** The registry invariant: every person is consistent with `face_data`
      and the persons' `face_indices` partition the face positions. */
  ghost predicate RegistryInvariant(people: Dict<int, Person>, faceData: seq<FaceRecord>) {
    && Valid(people)
    && AllEncoded(faceData)
    && (forall k :: k in people.entries ==> ConsistentPerson(people.entries[k], k, faceData))
    && Disjoint(people)
    && (forall i :: 0 <= i < |faceData| ==> Owned(people, i))
  }

  /** The registry a scan builds satisfies the registry invariant: each face
      is in exactly one person, each person's paths are those of its faces,
      and ids are the keys. */
  lemma RegistryIsPartition(faceData: seq<FaceRecord>, labels: seq<int>)
    requires |labels| == |faceData| && AllEncoded(faceData)
    requires forall l :: l in labels ==> 0 <= l
    ensures RegistryInvariant(Registry(faceData, labels), faceData)
    ensures forall k :: k in Registry(faceData, labels).entries ==>
      && Registry(faceData, labels).entries[k].name == "Person " + NatStr(k)
      && forall i :: i in Registry(faceData, labels).entries[k].faceIndices ==> labels[i] == k
  {
    var g := Group(labels);
    var people := Registry(faceData, labels);
    forall k | k in people.entries
      ensures ConsistentPerson(people.entries[k], k, faceData)
    {
      var s := g.entries[k];
      assert NoDup(s) by {
        forall a, b | 0 <= a < b < |s| ensures s[a] != s[b] {
          assert s[a] < s[b];
        }
      }
    }
    forall i | 0 <= i < |faceData|
      ensures Owned(people, i)
    {
      assert i in people.entries[labels[i]].faceIndices;
    }
  }

  /** The persons of a scan are exactly the connected components: face `j`
      is in the person that holds face `i` iff `i` and `j` are connected
      through close encodings. */
  lemma PersonsAreComponents(
    faceData: seq<FaceRecord>, close: (Encoding, Encoding) -> bool, labels: seq<int>, i: nat, j: nat)
    requires AllEncoded(faceData)
    requires IsComponentLabelling(EncodingsOf(faceData), close, labels)
    requires i < |faceData| && j < |faceData|
    ensures labels[i] in Registry(faceData, labels).entries
    ensures var p := Registry(faceData, labels).entries[labels[i]];
      i in p.faceIndices && (j in p.faceIndices <==> Connected(EncodingsOf(faceData), close, i, j))
  {
    var g := Group(labels);
    assert j in g.entries[labels[j]];
  }

  /** Lines 34-42: detect the faces of every image in order, keeping those
      with an encoding; `face_data` and `encodings` grow in lockstep. The
      progress value after image `i` is reported when a callback is given. */
  method CollectFaces(imageFiles: seq<string>, detect: string -> seq<FaceLocation>, reportProgress: bool)
    returns (faceData: seq<FaceRecord>, encodings: seq<Encoding>, progress: seq<int>)
    ensures faceData == ScannedFaces(imageFiles, detect)
    ensures AllEncoded(faceData) && encodings == EncodingsOf(faceData)
    ensures reportProgress ==>
      && |progress| == |imageFiles|
      && forall k :: 0 <= k < |progress| ==> progress[k] == ProgressValue(k, |imageFiles|)
    ensures !reportProgress ==> progress == []
  {
    faceData, encodings, progress := [], [], [];
    var total := |imageFiles|;
    for i := 0 to total
      invariant faceData == ScannedFaces(imageFiles[..i], detect)
      invariant AllEncoded(faceData) && encodings == EncodingsOf(faceData)
      invariant reportProgress ==>
        |progress| == i && forall k :: 0 <= k < i ==> progress[k] == ProgressValue(k, total)
      invariant !reportProgress ==> progress == []
    {
      var image := imageFiles[i];
      var faces := detect(image);
      assert imageFiles[..i + 1][..i] == imageFiles[..i];
      assert ScannedFaces(imageFiles[..i + 1], detect) == ScannedFaces(imageFiles[..i], detect) + KeptFaces(image, faces);
      faceData, encodings := KeepEncodedFaces(image, faces, faceData, encodings);
      if reportProgress {
        progress := progress + [ProgressValue(i, total)];
      }
    }
    assert imageFiles[..total] == imageFiles;
  }

  /** Lines 37-40 for one image: each face with an encoding is appended to
      `face_data` with the image's path, and its encoding to `encodings`. */
  method KeepEncodedFaces(image: string, faces: seq<FaceLocation>, faceData0: seq<FaceRecord>, encodings0: seq<Encoding>)
    returns (faceData: seq<FaceRecord>, encodings: seq<Encoding>)
    requires AllEncoded(faceData0) && encodings0 == EncodingsOf(faceData0)
    ensures faceData == faceData0 + KeptFaces(image, faces)
    ensures AllEncoded(faceData) && encodings == EncodingsOf(faceData)
  {
    faceData, encodings := faceData0, encodings0;
    for j := 0 to |faces|
      invariant faceData == faceData0 + KeptFaces(image, faces[..j])
      invariant AllEncoded(faceData) && encodings == EncodingsOf(faceData)
    {
      assert faces[..j + 1][..j] == faces[..j];
      assert KeptFaces(image, faces[..j + 1])
        == KeptFaces(image, faces[..j]) + (if faces[j].encoding.Some? then [(image, faces[j])] else []);
      if faces[j].encoding.Some? {
        EncodingsSnoc(faceData, (image, faces[j]));
        encodings := encodings + [faces[j].encoding.value];
        faceData := faceData + [(image, faces[j])];
      }
    }
    assert faces[..|faces|] == faces;
  }

  /** Lines 50-52: `clusters.setdefault(label, []).append(idx)` for every
      position in order. */
  method GroupLabels(labels: seq<int>) returns (clusters: Dict<int, seq<nat>>)
    ensures clusters == Group(labels)
  {
    clusters := Empty();
    for idx := 0 to |labels|
      invariant clusters == Group(labels[..idx])
    {
      GroupStep(labels, idx);
      clusters := SetDefaultAppend(clusters, labels[idx], idx);
    }
    assert labels[..|labels|] == labels;
  }

  /** Lines 53-63: one `Person` per cluster, in the order of `clusters`. */
  method BuildPeople(
    faceData: seq<FaceRecord>, encodings: seq<Encoding>, clusters: Dict<int, seq<nat>>)
    returns (people: Dict<int, Person>)
    requires AllEncoded(faceData) && encodings == EncodingsOf(faceData)
    requires WellFormedClusters(clusters, faceData)
    ensures people == PeopleOf(clusters, faceData)
  {
    var order := clusters.keys;
    people := Empty();
    for t := 0 to |order|
      invariant Valid(people) && people.keys == order[..t]
      invariant forall k :: k in people.entries ==> people.entries[k] == NewPerson(k, clusters.entries[k], faceData)
    {
      var k := order[t];
      var person := MakePerson(k, clusters.entries[k], faceData, encodings);
      assert order[..t + 1] == order[..t] + [k];
      people := Put(people, k, person);
    }
    assert order[..|order|] == order;
    assert people.entries.Keys == clusters.entries.Keys;
  }

  /** Lines 55-62 for one cluster: the photo set and the encodings of the
      cluster's members, read from `face_data` and `encodings`. */
  method MakePerson(k: int, indices: seq<nat>, faceData: seq<FaceRecord>, encodings: seq<Encoding>)
    returns (person: Person)
    requires AllEncoded(faceData) && encodings == EncodingsOf(faceData)
    requires 0 <= k && InRange(indices, faceData)
    ensures person == NewPerson(k, indices, faceData)
  {
    var photoPaths := set i | i in indices :: faceData[i].0;
    var encs := seq(|indices|, j requires 0 <= j < |indices| => assert indices[j] in indices; encodings[indices[j]]);
    assert encs == EncodingsAt(indices, faceData);
    person := Person(k, "Person " + NatStr(k), encs, photoPaths, indices);
  }

  // ---------------------------------------------------------------------
  // The recognizer object
  // ---------------------------------------------------------------------

  class FaceRecognizer {
    const similarityThreshold: real
    var people: Dict<int, Person>
    var faceData: seq<FaceRecord>
    var clusterLabels: seq<int>
    /** Whether `clusterLabels` holds the label array DBSCAN returned (line
        48) rather than a list; such an array has no `clear`. */
    var labelsAreArray: bool

    ghost predicate Valid()
      reads this
    {
      RegistryInvariant(people, faceData)
    }

    constructor(similarityThreshold: real)
      ensures Valid()
      ensures this.similarityThreshold == similarityThreshold
      ensures people == Empty() && faceData == [] && clusterLabels == [] && !labelsAreArray
    {
      this.similarityThreshold := similarityThreshold;
      people := Empty();
      faceData := [];
      clusterLabels := [];
      labelsAreArray := false;
    }

    /** `scan_folder` with the labels kept as a list, so that every scan
        starts afresh. `names` is the folder listing, `detect` the face
        detector, `close` the relation "distance at most
        `similarityThreshold`", and `dbscan` the clustering call, which
        returns a component labelling of whatever it is given. The result
        lists the progress values reported when a callback is present. */
    method ScanFolder(
      folder: string, names: seq<string>, detect: string -> seq<FaceLocation>,
      close: (Encoding, Encoding) -> bool, dbscan: seq<Encoding> -> seq<int>,
      reportProgress: bool)
      returns (progress: seq<int>)
      requires forall encs :: IsComponentLabelling(encs, close, dbscan(encs))
      modifies this
      ensures Valid()
      ensures faceData == ScannedFaces(ImageFiles(folder, names), detect)
      ensures faceData == [] ==> people == Empty() && clusterLabels == []
      ensures faceData != [] ==>
        && clusterLabels == dbscan(EncodingsOf(faceData))
        && IsComponentLabelling(EncodingsOf(faceData), close, clusterLabels)
        && people == Registry(faceData, clusterLabels)
      ensures reportProgress ==>
        && |progress| == |ImageFiles(folder, names)|
        && forall k :: 0 <= k < |progress| ==> progress[k] == ProgressValue(k, |progress|)
      ensures !reportProgress ==> progress == []
      ensures !labelsAreArray
    {
      faceData := [];
      people := Empty();
      clusterLabels := [];
      labelsAreArray := false;
      var imageFiles := ImageFiles(folder, names);
      var encodings;
      faceData, encodings, progress := CollectFaces(imageFiles, detect, reportProgress);
      if |encodings| == 0 {
        return;
      }
      var labels := dbscan(encodings);
      assert IsComponentLabelling(encodings, close, labels);
      clusterLabels := labels;
      var clusters := GroupLabels(labels);
      GroupIsWellFormed(faceData, labels);
      people := BuildPeople(faceData, encodings, clusters);
      RegistryIsPartition(faceData, labels);
    }

    /** `scan_folder` as written. Lines 28-29 empty `face_data` and
        `people`; line 30 then raises `AttributeError` (`failed`) when the
        labels are still the array an earlier scan stored at line 48,
        leaving those labels in place. Otherwise the scan proceeds as in
        `ScanFolder`, and its labels are an array exactly when it found a
        face. */
    method ScanFolderAsWritten(
      folder: string, names: seq<string>, detect: string -> seq<FaceLocation>,
      close: (Encoding, Encoding) -> bool, dbscan: seq<Encoding> -> seq<int>,
      reportProgress: bool)
      returns (progress: seq<int>, failed: bool)
      requires forall encs :: IsComponentLabelling(encs, close, dbscan(encs))
      modifies this
      ensures Valid()
      ensures failed <==> old(labelsAreArray)
      ensures failed ==>
        && faceData == [] && people == Empty() && progress == []
        && clusterLabels == old(clusterLabels) && labelsAreArray
      ensures !failed ==>
        && faceData == ScannedFaces(ImageFiles(folder, names), detect)
        && (faceData == [] ==> people == Empty() && clusterLabels == [])
        && (faceData != [] ==>
              && clusterLabels == dbscan(EncodingsOf(faceData))
              && IsComponentLabelling(EncodingsOf(faceData), close, clusterLabels)
              && people == Registry(faceData, clusterLabels))
        && labelsAreArray == (faceData != [])
        && (reportProgress ==> |progress| == |ImageFiles(folder, names)|)
        && (!reportProgress ==> progress == [])
    {
      faceData := [];
      people := Empty();
      if labelsAreArray {
        return [], true;
      }
      progress := ScanFolder(folder, names, detect, close, dbscan, reportProgress);
      labelsAreArray := faceData != [];
      failed := false;
    }

    /** `get_all_people`: every registered person once, in dict order. */
    function GetAllPeople(): (r: seq<Person>)
      reads this
      requires Valid()
      ensures |r| == |people.keys|
      ensures forall j :: 0 <= j < |r| ==> r[j] == people.entries[people.keys[j]] && r[j].id == people.keys[j]
      ensures forall k :: k in people.entries ==> people.entries[k] in r
      ensures forall p :: p in r ==> p.id in people.entries && people.entries[p.id] == p
    {
      var r := Values(people);
      assert forall j :: 0 <= j < |r| ==> r[j].id == people.keys[j];
      r
    }

    /** `get_person_photos`: the person's photo paths, or the empty set for
        an unknown id. */
    function GetPersonPhotos(personId: int): (r: set<string>)
      reads this
      requires Valid()
      ensures personId !in people.entries ==> r == {}
      ensures personId in people.entries ==>
        r == set i | i in people.entries[personId].faceIndices :: faceData[i].0
    {
      if personId in people.entries then people.entries[personId].photoPaths else {}
    }

    /** `get_person_face_indices`: the person's faces, or [] for an unknown id. */
    function GetPersonFaceIndices(personId: int): (r: seq<nat>)
      reads this
      requires Valid()
      ensures personId !in people.entries ==> r == []
      ensures forall i :: i in r ==> i < |faceData| && (exists k :: k in people.entries && i in people.entries[k].faceIndices)
      ensures personId in people.entries ==> r == people.entries[personId].faceIndices
    {
      if personId in people.entries then people.entries[personId].faceIndices else []
    }

    /** `rename_person`: only the name of an existing person changes; an
        unknown id is ignored. */
    method RenamePerson(personId: int, newName: string)
      requires Valid()
      modifies this
      ensures Valid()
      ensures faceData == old(faceData) && clusterLabels == old(clusterLabels)
      ensures labelsAreArray == old(labelsAreArray)
      ensures people.keys == old(people.keys) && people.entries.Keys == old(people.entries.Keys)
      ensures personId in old(people.entries) ==>
        people.entries == old(people.entries)[personId := old(people.entries[personId]).(name := newName)]
      ensures personId !in old(people.entries) ==> people == old(people)
    {
      if personId in people.entries {
        var p := people.entries[personId];
        people := Put(people, personId, p.(name := newName));
        assert forall i :: 0 <= i < |faceData| && Owned(old(people), i) ==> Owned(people, i);
      }
    }
  }

  /** As written, a recognizer that has scanned a folder with an encoded
      face cannot scan again: the next `scan_folder`, whatever its folder,
      raises after emptying the registry. */
  method RescanFailsAsWritten(
    folder: string, names: seq<string>, folder2: string, names2: seq<string>,
    detect: string -> seq<FaceLocation>, close: (Encoding, Encoding) -> bool,
    dbscan: seq<Encoding> -> seq<int>)
    returns (firstFailed: bool, secondFailed: bool, people: Dict<int, Person>)
    requires forall encs :: IsComponentLabelling(encs, close, dbscan(encs))
    requires ScannedFaces(ImageFiles(folder, names), detect) != []
    ensures !firstFailed && secondFailed && people == Empty()
  {
    var recognizer := new FaceRecognizer(0.5);
    var _, f1 := recognizer.ScanFolderAsWritten(folder, names, detect, close, dbscan, false);
    var _, f2 := recognizer.ScanFolderAsWritten(folder2, names2, detect, close, dbscan, false);
    firstFailed, secondFailed, people := f1, f2, recognizer.people;
  }

  /** With the labels kept as a list, a second scan on the same recognizer
      rebuilds the registry from the second folder alone. */
  method RescanRebuilds(
    folder: string, names: seq<string>, folder2: string, names2: seq<string>,
    detect: string -> seq<FaceLocation>, close: (Encoding, Encoding) -> bool,
    dbscan: seq<Encoding> -> seq<int>)
    returns (faceData: seq<FaceRecord>, people: Dict<int, Person>)
    requires forall encs :: IsComponentLabelling(encs, close, dbscan(encs))
    ensures faceData == ScannedFaces(ImageFiles(folder2, names2), detect)
    ensures faceData == [] ==> people == Empty()
    ensures faceData != [] ==>
      && IsComponentLabelling(EncodingsOf(faceData), close, dbscan(EncodingsOf(faceData)))
      && RegistryInvariant(people, faceData)
      && forall k :: k in people.entries <==> k in dbscan(EncodingsOf(faceData))
  {
    var recognizer := new FaceRecognizer(0.5);
    var _ := recognizer.ScanFolder(folder, names, detect, close, dbscan, false);
    var _ := recognizer.ScanFolder(folder2, names2, detect, close, dbscan, false);
    faceData, people := recognizer.faceData, recognizer.people;
  }
}

=== FILE: strings.dfy ===
/** String helpers that mirror the Python built-ins the program relies on:
    `str.lower`, `str.endswith`, decimal formatting of integers, and the
    Windows flavour of `os.path.join` and `pathlib.Path.suffix`. */
module Strings {

  /** `str.lower()` on one character (ASCII letters only). */
  function LowerChar(c: char): char {
    if 'A' <= c <= 'Z' then (c as int + 32) as char else c
  }

  function Lower(s: string): (r: string)
    ensures |r| == |s|
  {
    seq(|s|, i requires 0 <= i < |s| => LowerChar(s[i]))
  }

  /** Lower-casing commutes with taking a tail. */
  lemma LowerTail(s: string, n: nat)
    requires n <= |s|
    ensures Lower(s)[n..] == Lower(s[n..])
  {
  }

  /** Lower-casing works character by character. */
  lemma LowerPrepend(c: char, s: string)
    ensures Lower([c] + s) == [LowerChar(c)] + Lower(s)
  {
  }

  /** `s.endswith(suffix)` */
  predicate EndsWith(s: string, suffix: string) {
    |suffix| <= |s| && s[|s| - |suffix|..] == suffix
  }

  /** `s.endswith(tuple(suffixes))`, or `any(s.endswith(x) for x in suffixes)` */
  predicate EndsWithAny(s: string, suffixes: seq<string>) {
    exists j :: 0 <= j < |suffixes| && EndsWith(s, suffixes[j])
  }

  function Digit(d: nat): (c: char)
    requires d < 10
    ensures '0' <= c <= '9' && c as int - '0' as int == d
  {
    (d + '0' as int) as char
  }

  /** `str(n)` for a non-negative integer. */
  function NatStr(n: nat): (r: string)
    ensures 1 <= |r|
    ensures forall i :: 0 <= i < |r| ==> '0' <= r[i] <= '9'
    ensures (|r| == 1) == (n < 10)
  {
    if n < 10 then [Digit(n)] else NatStr(n / 10) + [Digit(n % 10)]
  }

  /** Distinct numbers print as distinct strings. */
  lemma {:induction false} NatStrInjective(a: nat, b: nat)
    requires NatStr(a) == NatStr(b)
    ensures a == b
  {
    if a >= 10 && b >= 10 {
      var sa, sb := NatStr(a), NatStr(b);
      assert sa[..|sa| - 1] == NatStr(a / 10);
      assert sb[..|sb| - 1] == NatStr(b / 10);
      NatStrInjective(a / 10, b / 10);
      assert sa[|sa| - 1] == Digit(a % 10);
      assert sb[|sb| - 1] == Digit(b % 10);
    } else if a < 10 && b < 10 {
      assert NatStr(a)[0] == Digit(a);
    }
  }

  /** Path separators of the Windows path flavour. */
  predicate IsSeparator(c: char) {
    c == '/' || c == '\\'
  }

  /** A bare drive such as `C:`: `ntpath.join` adds no separator after it,
      so the name is relative to that drive's current directory. */
  predicate IsBareDrive(folder: string) {
    |folder| == 2 && folder[1] == ':'
  }

  /** `os.path.join(folder, name)` for a plain file name. */
  function JoinPath(folder: string, name: string): string {
    if folder == [] || IsSeparator(folder[|folder| - 1]) || IsBareDrive(folder) then folder + name
    else folder + "\\" + name
  }

  /** The joined path starts with the folder and ends with the name;
      exactly one separator stands between the name and a non-empty folder
      that is not a bare drive, and none after a bare drive. */
  lemma JoinPathParts(folder: string, name: string)
    ensures var r := JoinPath(folder, name);
      && folder <= r && EndsWith(r, name) && |r| <= |folder| + 1 + |name|
      && (folder != [] && !IsBareDrive(folder) ==> |r| > |name| && IsSeparator(r[|r| - |name| - 1]))
      && (IsBareDrive(folder) ==> r == folder + name)
  {
  }

  /** `Path(p).name`: the part after the last separator. */
  function PathName(p: string): (r: string)
    ensures |r| <= |p| && r == p[|p| - |r|..]
    ensures forall i :: 0 <= i < |r| ==> !IsSeparator(r[i])
  {
    if p == [] || IsSeparator(p[|p| - 1]) then []
    else PathName(p[..|p| - 1]) + [p[|p| - 1]]
  }

  /** A path without separators is its own name. */
  lemma {:induction false} PathNameWithoutSeparator(p: string)
    requires forall i :: 0 <= i < |p| ==> !IsSeparator(p[i])
    ensures PathName(p) == p
  {
    if p != [] {
      PathNameWithoutSeparator(p[..|p| - 1]);
      assert p == p[..|p| - 1] + [p[|p| - 1]];
    }
  }

  /** Index of the last '.' in `s`, if any (`str.rfind('.')`). */
  function LastDot(s: string): (r: int)
    ensures -1 <= r < |s|
    ensures r >= 0 ==> s[r] == '.'
    ensures forall i :: r < i < |s| ==> s[i] != '.'
  {
    if s == [] then -1
    else if s[|s| - 1] == '.' then |s| - 1
    else LastDot(s[..|s| - 1])
  }

  /** `Path(p).suffix`: from the last dot of the name, provided that dot is
      neither the first nor the last character of the name; else "". */
  function Suffix(p: string): (r: string)
    ensures r == [] || (r[0] == '.' && 2 <= |r| && EndsWith(p, r))
    ensures forall i :: 1 <= i < |r| ==> r[i] != '.' && !IsSeparator(r[i])
    ensures r != [] ==> |r| < |PathName(p)|
    ensures forall stem, ext :: |stem| > 0 && |ext| > 0 && '.' !in ext && PathName(p) == stem + "." + ext ==> r == "." + ext
  {
    var name := PathName(p);
    var i := LastDot(name);
    forall stem, ext | |stem| > 0 && |ext| > 0 && '.' !in ext && name == stem + "." + ext
      ensures i == |stem| && name[i..] == "." + ext
    {
      LastDotBeforeExtension(name, stem, ext);
    }
    if 0 < i < |name| - 1 then name[i..] else []
  }

  /** In `<stem>.<ext>` with a dot-free ext, the last dot is the one
      after the stem. */
  lemma LastDotBeforeExtension(name: string, stem: string, ext: string)
    requires '.' !in ext && name == stem + "." + ext
    ensures LastDot(name) == |stem| && name[|stem|..] == "." + ext
  {
    assert name[|stem|] == '.';
    forall k | |stem| < k < |name|
      ensures name[k] != '.'
    {
      assert name[k] == ext[k - |stem| - 1];
    }
  }
}

=== FILE: util.dfy ===
/** Small helpers shared by every module: an optional value and the list
    operations Python's built-in `list` offers. */
module Util {

  datatype Option<T> = None | Some(value: T)

  /** No element occurs twice. */
  predicate NoDup<T(==)>(s: seq<T>) {
    forall i, j :: 0 <= i < j < |s| ==> s[i] != s[j]
  }

  /** Position of the first occurrence of `x` in `s` (Python's `list.index`). */
  function IndexOf<T(==)>(s: seq<T>, x: T): (i: nat)
    requires x in s
    ensures i < |s| && s[i] == x && x !in s[..i]
  {
    if s[0] == x then 0 else 1 + IndexOf(s[1..], x)
  }

  /** Python's `list.remove(x)`: drops the first occurrence of `x`, so
      exactly one copy of `x` goes and every other element keeps its order. */
  function RemoveFirst<T(==)>(s: seq<T>, x: T): (r: seq<T>)
    requires x in s
    ensures |r| == |s| - 1
    ensures multiset(r) == multiset(s) - multiset{x}
    ensures exists i :: 0 <= i < |s| && s[i] == x && x !in s[..i] && r == s[..i] + s[i + 1..]
  {
    var i := IndexOf(s, x);
    assert s == s[..i] + [x] + s[i + 1..];
    s[..i] + s[i + 1..]
  }

  /** `s` without any occurrence of `x`, order kept. */
  function Without<T(==)>(s: seq<T>, x: T): (r: seq<T>)
    ensures forall i :: 0 <= i < |r| ==> r[i] in s && r[i] != x
    ensures forall i :: 0 <= i < |s| && s[i] != x ==> s[i] in r
    ensures NoDup(s) ==> NoDup(r)
  {
    if s == [] then []
    else if s[0] == x then Without(s[1..], x)
    else [s[0]] + Without(s[1..], x)
  }

  /** A list without repeats has at most one copy of each value. */
  lemma {:induction false} AtMostOnce<T>(s: seq<T>, x: T)
    requires NoDup(s)
    ensures multiset(s)[x] <= 1
  {
    if s != [] {
      AtMostOnce(s[1..], x);
      forall k | 0 <= k < |s[1..]|
        ensures s[1..][k] != s[0]
      {
        assert s[1..][k] == s[k + 1];
      }
      assert s == [s[0]] + s[1..];
    }
  }

  /** A list without repeats has as many elements as its set. */
  lemma {:induction false} NoDupSize<T>(s: seq<T>)
    requires NoDup(s)
    ensures |set x | x in s| == |s|
  {
    if s != [] {
      var t := s[1..];
      forall i, j | 0 <= i < j < |t|
        ensures t[i] != t[j]
      {
        assert t[i] == s[i + 1] && t[j] == s[j + 1];
      }
      NoDupSize(t);
      forall k | 0 <= k < |t|
        ensures t[k] != s[0]
      {
        assert t[k] == s[k + 1];
      }
      assert (set x | x in s) == (set x | x in t) + {s[0]};
    }
  }

  /** A rearrangement of a list without repeats has no repeats. */
  lemma NoDupPermutation<T>(a: seq<T>, b: seq<T>)
    requires multiset(a) == multiset(b) && NoDup(b)
    ensures NoDup(a)
  {
    forall i, j | 0 <= i < j < |a|
      ensures a[i] != a[j]
    {
      var x := a[i];
      AtMostOnce(b, x);
      assert a == a[..j] + [a[j]] + a[j + 1..];
      assert a[..j][i] == x;
    }
  }
}

=== FILE: watchdog.dfy ===
/** The parts of the `watchdog` library the program touches: the event a
    handler receives, and an observer reduced to what it has been told to
    do. Delivery of events is not modelled; handlers are called directly. */
module Watchdog {

  /** `FileSystemEvent`: whether the path is a directory, and the path. */
  datatype FileSystemEvent = FileSystemEvent(isDirectory: bool, srcPath: string)

  /** A watch registered with `Observer.schedule`. */
  datatype Watch = Watch(handler: object, path: string, recursive: bool)

  class Observer {
    var watches: seq<Watch>
    var started: bool
    var stopped: bool
    var joined: bool

    constructor()
      ensures watches == [] && !started && !stopped && !joined
    {
      watches := [];
      started, stopped, joined := false, false, false;
    }

    method Schedule(handler: object, path: string, recursive: bool)
      modifies this
      ensures watches == old(watches) + [Watch(handler, path, recursive)]
      ensures started == old(started) && stopped == old(stopped) && joined == old(joined)
    {
      watches := watches + [Watch(handler, path, recursive)];
    }

    method Start()
      modifies this
      ensures started && watches == old(watches) && stopped == old(stopped) && joined == old(joined)
    {
      started := true;
    }

    method Stop()
      modifies this
      ensures stopped && watches == old(watches) && started == old(started) && joined == old(joined)
    {
      stopped := true;
    }

    method Join()
      modifies this
      ensures joined && watches == old(watches) && started == old(started) && stopped == old(stopped)
    {
      joined := true;
    }
  }
}
